=== FILE: README.md ===
# DubSync transcription core in Dafny

DubSync streams short chunks of speech from a browser to a transcription
backend and shows the text as it comes back. The model covers these parts:

- **Backend.** A Django app has an engine, two tables and two front doors.
  - The engine is a lazily created singleton that returns canned phrases per language.
  - The tables are `TranscriptionSession` and `TranscriptionResult`.
  - The first front door is a REST API: transcribe a chunk, create, end and list a session, languages, health.
  - The second front door is a WebSocket consumer: audio chunks and start/end messages.
  - There is also the admin's text preview.
- **Browser side.** A WebSocket client keeps a reconnect policy and a handler registry. Audio helpers chunk, noise-gate and encode samples.
- **Stand-alone dashboard.** A Streamlit recorder keeps a rolling buffer, runs a frame-voting voice detector and has a transcription worker.

Modules, one per file:

| module | file | models |
|---|---|---|
| `Wrappers` | wrappers.dfy | `Option`, `Result` |
| `JsonValues` | json.dfy | JSON values as Python sees them: `str`, `repr`, truthiness, hashability, decimal text |
| `Text` | text.dfy | `str.strip` and `str.isspace` |
| `Languages` | languages.dfy | the 22-entry `LANGUAGE_MAPPING` |
| `Engine` | engine.dfy | `IndicConformerModel`: the singleton and `transcribe` |
| `Store` | store.dfy | the two tables, as a `Database` class whose methods are the ORM calls the views make |
| `Serializers` | serializers.dfy | the DRF serializers: field validation and output views |
| `Views` | views.dfy | the REST endpoints |
| `Consumer` | consumer.dfy | `TranscriptionConsumer` |
| `Admin` | admin.dfy | `transcription_text_preview` |
| `WebSocketClient` | websocket_service.dfy | the browser `WebSocketService` |
| `AudioUtils` | audio_utils.dfy | the browser audio helpers |
| `Dashboard` | dashboard.dfy | app.py's `AudioProcessor` |

The model stands in for parts of the system it cannot see:

- Randomness (`random.choice`) is a `pick: nat` argument.
- The base64-and-float32 decoding is an `AudioDecoder` function parameter.
- The WebRTC voice detector, the model's decoder and `btoa` are function parameters.
- Generated uuids and wall-clock seconds are arguments.
- Database timestamps are the ticks of a counter, `Database.clock`.

## Model

| member | source | states |
|---|---|---|
| JsonValues.Repr | DubSync/backend/transcription/consumers.py:170-174 | Python's `repr` of a JSON value, as Django quotes it in the chunk-number error: equal to `str` for non-strings; a string is wrapped in the same quote at both ends, double exactly when it holds a single quote and no double quote |
| JsonValues.Truthy | DubSync/backend/transcription/consumers.py:77 | Python truthiness: falsy exactly for None, False, 0, 0.0, '' and an empty list or dict |
| JsonValues.Hashable | DubSync/backend/transcription/views.py:153 | None, booleans, numbers and strings can be dictionary keys; lists and dicts cannot, so only they make a membership test raise |
| JsonValues.ParseDecimal | DubSync/backend/transcription/consumers.py:170-174 | `int()` of stripped text accepts exactly an optional sign followed by one or more ASCII digits; a '-' sign gives a value at most 0, otherwise at least 0 |
| JsonValues.Show | DubSync/backend/transcription/views.py:155 | `str()` of a value: 'None' for null, a string as itself, and an integer's text that parses back to the integer |
| JsonValues.DecimalRoundTrip | DubSync/backend/transcription/consumers.py:170-174 | `int(str(i)) == i` for every integer: the decimal text of a chunk number reads back as that number |
| JsonValues.DecimalInjective | DubSync/backend/transcription/consumers.py:170-174 | distinct integers have distinct decimal texts |
| Text.Strip | app.py:169-193 | `str.strip()`: the result is empty exactly when the input is blank; otherwise it is exactly the infix between the longest blank prefix and the longest blank suffix, and neither of its ends is white space |
| Text.StripIdempotent | app.py:169-193 | stripping twice is stripping once |
| Text.StripKeepsTrimmed | DubSync/backend/transcription/serializers.py:14-19 | text with non-space ends is left unchanged by strip |
| Text.StripDropsOnlySpace | app.py:169-193 | what strip removes is only white space: the dropped prefix and the dropped suffix are both blank |
| Languages.Find | DubSync/backend/transcription/views.py:23-46 | dictionary lookup: absent iff no entry has the code; otherwise the name of an entry with that code |
| Languages.Lookup | DubSync/backend/transcription/views.py:136 | `LANGUAGE_MAPPING[code]`: absent iff no table entry has the code, otherwise the name of an entry with that code |
| Languages.IsSupported | DubSync/backend/transcription/views.py:96 | `code in LANGUAGE_MAPPING`: true exactly when some table entry has the code |
| Languages.NameOrUnknown | DubSync/backend/transcription/views.py:208 | `LANGUAGE_MAPPING.get(code, 'Unknown')`: the table's name for a supported code, else 'Unknown' |
| Languages.SupportedLanguages | DubSync/backend/transcription/views.py:49-55 | exactly the table's 22 entries in the order the literal lists them: distinct codes, each mapping to its own name, and every supported code listed |
| Languages.FindEntry | DubSync/backend/transcription/views.py:23-46 | in a table with distinct codes, every listed entry is found by its code |
| Languages.TableIsDictionary | DubSync/backend/transcription/views.py:23-46 | the literal has 22 distinct keys, so every entry is reachable by lookup |
| Languages.TableAscending | DubSync/backend/transcription/views.py:23-46 | the keys as written are in strictly ascending order |
| Languages.DefaultLanguageSupported | DubSync/backend/transcription/views.py:151-157 | the default code 'hi' is supported and named 'Hindi' |
| Engine.FindPhrases | DubSync/backend/transcription/models.py:70-83 | `demo_samples.get(code)`: absent iff no entry has the code; otherwise that entry's phrases |
| Engine.DemoSamplesWellFormed | DubSync/backend/transcription/models.py:70-83 | every language has three non-empty phrases, and 'hi' is present for the fallback |
| Engine.PhrasesFor | DubSync/backend/transcription/models.py:93 | the code's phrases, or Hindi's when the code is missing: always three non-empty phrases |
| Engine.Transcribe | DubSync/backend/transcription/models.py:62-100 | "" exactly for empty or quiet audio (every sample below 0.01 in magnitude); otherwise a phrase of the code's list, or the fallback text when the lookup raises on an unhashable code |
| Engine.Quiet | DubSync/backend/transcription/models.py:89 | every sample's magnitude is below 0.01 |
| Engine.EveryPhraseReachable | DubSync/backend/transcription/models.py:96 | every phrase of the list is returned for some draw |
| Engine.MissingLanguageFallsBackToHindi | DubSync/backend/transcription/models.py:93 | a supported code without demo phrases ('brx') transcribes to a Hindi phrase |
| Engine.EngineModel.constructor | DubSync/backend/transcription/models.py:16-44 | a fresh engine is loaded, on 'cpu', holding the demo model |
| Engine.EngineRegistry.constructor | DubSync/backend/transcription/models.py:11-14 | no instance exists before first use |
| Engine.EngineRegistry.GetInstance | DubSync/backend/transcription/models.py:22-28 | the first call constructs the one instance and later calls return the same object; at most one construction ever happens |
| Store.RowsOf | DubSync/backend/transcription/views.py:203 | `filter(session=...)`: exactly the rows of that session |
| Store.RowsExcept | DubSync/backend/transcription/models.py:117 | the rows a cascade delete keeps: exactly those of other sessions |
| Store.InsertByChunk | DubSync/backend/transcription/models.py:123-124 | insertion into a chunk-ordered list: the same rows plus one |
| Store.InsertKeepsSorted | DubSync/backend/transcription/models.py:123-124 | inserting into a list sorted by chunk number keeps it sorted |
| Store.SortByChunk | DubSync/backend/transcription/models.py:123-124 | `ordering = ['chunk_number']`: the result is sorted and a permutation of the input |
| Store.RowsOfAppend | DubSync/backend/transcription/models.py:115-121 | appending a row adds it to its own session's rows only |
| Store.CascadeKeepsOthers | DubSync/backend/transcription/models.py:117 | a cascade delete leaves every other session's rows exactly as they were |
| Store.CascadeLeavesNothing | DubSync/backend/transcription/models.py:117 | after a cascade delete the deleted session has no rows |
| Store.Database.constructor | DubSync/backend/transcription/models.py:103-121 | empty tables |
| Store.Database.ResultsOf | DubSync/backend/transcription/views.py:203 | the session's rows, sorted by chunk number, as a permutation of exactly its rows |
| Store.Database.GetOrCreate | DubSync/backend/transcription/views.py:104-110 | `get_or_create`: an existing session is untouched; a missing one is inserted active in the requested language |
| Store.Database.Create | DubSync/backend/transcription/views.py:160-164 | `objects.create`: inserts an active session, and fails on the unique id when it is already stored |
| Store.Database.Deactivate | DubSync/backend/transcription/views.py:180-182 | `get` then `is_active = False; save()`: found iff stored; only that session changes, and its updated_at is refreshed |
| Store.Database.AppendResult | DubSync/backend/transcription/views.py:125-130 | appends exactly one row and changes no other; a chunk number outside the 64-bit INTEGER range is refused and nothing is written |
| Store.Database.Delete | DubSync/backend/transcription/models.py:117 | deleting a session removes exactly it and its rows |
| Serializers.Field | DubSync/backend/transcription/serializers.py:14-19 | a field is present iff the key is in the request data |
| Serializers.CharField | DubSync/backend/transcription/serializers.py:15-17 | accepted only for strings and numbers; the value is `str()` of the input, stripped, non-empty, without NUL and within max_length; a missing field is 'required', null is 'null', and booleans, lists and objects are 'Not a valid string.' |
| Serializers.DropZeroFraction | DubSync/backend/transcription/serializers.py:18-19 | drops a `.0…` fraction, keeping the text before the point |
| Serializers.IntegerField | DubSync/backend/transcription/serializers.py:18-19 | a missing field takes the default or is 'required'; null is 'null'; booleans, lists and objects are 'A valid integer is required.'; only integers, floats and strings are ever accepted |
| Serializers.IntegerFieldAcceptsIntegers | DubSync/backend/transcription/serializers.py:18-19 | every JSON integer is accepted as itself |
| Serializers.DecimalCharacters | DubSync/backend/transcription/serializers.py:18-19 | decimal text is digits with at most a leading minus |
| Serializers.WithError | DubSync/backend/transcription/serializers.py:14-19 | a failing field adds exactly its own key to the errors |
| Serializers.ValidateChunk | DubSync/backend/transcription/serializers.py:14-19 | valid iff all five fields are; otherwise the errors name exactly the failing fields; session_id is at most 100 and language_code at most 10 characters; sample_rate defaults to 16000 |
| Serializers.Assemble | DubSync/backend/transcription/serializers.py:14-19 | the validated data holds every field's value; the errors are keyed by exactly the failing fields |
| Serializers.SerializeSession | DubSync/backend/transcription/serializers.py:4-7 | the session view holds id, language, created_at and is_active of the row |
| Serializers.SerializeResult | DubSync/backend/transcription/serializers.py:9-12 | the result view holds chunk number, text, confidence and timestamp of the row |
| Serializers.SessionViewHidesUpdatedAt | DubSync/backend/transcription/serializers.py:7 | the session view does not depend on updated_at |
| Serializers.ResultViewHidesSession | DubSync/backend/transcription/serializers.py:12 | the result view does not depend on the owning session |
| Serializers.LanguagesFitLanguageSerializer | DubSync/backend/transcription/serializers.py:21-23 | every table entry fits the language serializer's limits (code 10, name 50) |
| Serializers.SampleRateDefault | DubSync/backend/transcription/serializers.py:19 | an absent sample_rate validates to 16000; an integer one to itself |
| Views.GetSupportedLanguages | DubSync/backend/transcription/views.py:48-55 | 200 with exactly the table's 22 entries in table order: distinct codes, each with the table's name, and every supported code listed |
| Views.RequestData | DubSync/backend/transcription/views.py:74-79 | an object body reaches validation with its fields; any other JSON value is a 400 'Invalid input data' under `non_field_errors` ('No data provided' for null, otherwise 'Expected a dictionary, but got' its Python type); for an `application/json` body with a JSON syntax error, a 500 whose details begin 'JSON parse error - ' |
| Views.ChunkText | DubSync/backend/transcription/views.py:115-122 | the stored text is the engine's transcription of the samples in the requested language |
| Views.Admit | DubSync/backend/transcription/views.py:74-100 | the three 400s in order (invalid input with the field errors, then undecodable audio, then unsupported language); admitted iff all checks pass, with the decoded samples and the language's name |
| Views.Post | DubSync/backend/transcription/views.py:71-145 | a JSON body that is not an object, a JSON syntax error and a rejected request answer their error and leave the store unchanged; an admitted one ends in the `Recorded` state: session fetched or created, one row appended and echoed, or a 500 for a chunk number SQLite cannot hold |
| Views.Record | DubSync/backend/transcription/views.py:102-138 | get-or-create the session, transcribe, append exactly one row holding the text and answer with that row; an out-of-range chunk number leaves the new session but no row, and answers 500 with the driver's message |
| Views.SessionLanguage | DubSync/backend/transcription/views.py:149-157 | a JSON body that is not an object makes `request.data.get` raise (500); otherwise 'hi' when absent; a supported string code is accepted; any other hashable value is a 400 naming `str()` of it; an array or object makes the membership test raise (500) |
| Views.CreateSession | DubSync/backend/transcription/views.py:147-174 | the language errors leave the store unchanged; a clashing id is a 500; otherwise 201 with the new active session stored under the fresh id |
| Views.EndSession | DubSync/backend/transcription/views.py:176-196 | 404 and no change for an unknown id; otherwise only that session becomes inactive |
| Views.GetSessionResults | DubSync/backend/transcription/views.py:198-222 | 404 for an unknown id; otherwise the serialized rows of that session, each exactly once (a permutation of them, so none missing or repeated), ascending by chunk number, each view from a stored row of the session, with the stored language's name or 'Unknown' |
| Views.SerializeRowsPermutation | DubSync/backend/transcription/views.py:203-205 | serializing rows that are a permutation of each other gives views that are a permutation of each other, so ordering the rows before serializing them loses none |
| Views.HealthCheck | DubSync/backend/transcription/views.py:57-65 | the engine's load flag and its device, 'unknown' when it has none; the engine exists afterwards |
| Consumer.Truncate | DubSync/backend/transcription/consumers.py:170-174 | `int()` of a float: truncation toward zero |
| Consumer.ChunkColumn | DubSync/backend/transcription/consumers.py:170-174 | the IntegerField column's conversion: integers as themselves, booleans as 0/1, floats truncated, decimal text (after strip) parsed; null breaks NOT NULL; anything else is Django's 'expected a number' error with the value's repr |
| Consumer.DecimalIsStripped | DubSync/backend/transcription/consumers.py:170-174 | decimal text has no white space at either end |
| Consumer.ChunkColumnReadsDecimalText | DubSync/backend/transcription/consumers.py:170-174 | a chunk number sent as the decimal text of an integer is stored as that integer |
| Consumer.LanguageColumn | DubSync/backend/transcription/consumers.py:130-140 | the stored language is `str()` of the value (a string unchanged); only null is refused |
| Consumer.RouteOf | DubSync/backend/transcription/consumers.py:39-66 | each frame goes to exactly one route: bad JSON, not an object, or by its 'type' field to one handler or the unknown-type error |
| Consumer.TranscriptionConsumer.Connect | DubSync/backend/transcription/consumers.py:14-30 | the connection binds the URL's session id and sends exactly the confirmation |
| Consumer.TranscriptionConsumer.TranscribeAudio | DubSync/backend/transcription/consumers.py:152-182 | the engine's text, saved as one new row only when the session exists and the chunk number converts and fits 64 bits; otherwise nothing is written, and a conversion failure becomes the error text |
| Consumer.TranscriptionConsumer.HandleAudioChunk | DubSync/backend/transcription/consumers.py:68-107 | exactly one reply, and the sessions untouched (`ChunkHandled`): a falsy payload and an undecodable one are errors that write nothing; otherwise the result echoes chunk number and language as received, and the results are as `Saved` states |
| Consumer.TranscriptionConsumer.HandleStartSession | DubSync/backend/transcription/consumers.py:109-119 | get-or-create the session; fails (nothing sent, nothing written) exactly when `StartFails`, a missing session with a null language; otherwise replies 'session_started', the sessions are `SessionsAfterStart`, and the clock advances only when a session was created |
| Consumer.TranscriptionConsumer.HandleEndSession | DubSync/backend/transcription/consumers.py:121-128 | the sessions are `SessionsAfterEnd`: a stored session becomes inactive, a missing one is ignored; the clock advances only for a stored session; the reply is always 'session_ended' |
| Consumer.TranscriptionConsumer.Receive | DubSync/backend/transcription/consumers.py:39-66 | exactly one reply per frame. Error routes answer their error and change nothing. An audio chunk ends as `ChunkHandled` (reply, rows and untouched sessions). A start session answers the error and writes nothing when `StartFails`, otherwise replies 'session_started' with `SessionsAfterStart`. An end session replies 'session_ended' with `SessionsAfterEnd`. Both session routes pin the clock as their handlers do. Only audio chunks add rows |
| Consumer.SessionsAfterStart | DubSync/backend/transcription/consumers.py:109-116 | get_or_create's effect: the connection's session is present afterwards, every other session is kept as it was, and a new one is active in `str()` of the language with both times the current tick |
| Consumer.SessionsAfterEnd | DubSync/backend/transcription/consumers.py:121-126 | the same ids as before; a stored session is inactive with updated_at refreshed, and every other session is kept as it was |
| Admin.Preview | DubSync/backend/transcription/admin.py:18-19 | text of at most 100 characters is shown as is; longer text as its first 100 characters and '...' |
| Admin.PreviewCollision | DubSync/backend/transcription/admin.py:18-19 | two texts share a preview iff both are short and equal, or both are long with the same first 100 characters |
| WebSocketClient.Wire | DubSync/frontend/src/services/websocketService.js:89-110 | every client message carries a string 'type' |
| WebSocketClient.SocketUrl | DubSync/frontend/src/services/websocketService.js:16 | the fixed server prefix, the session id, then '/', so the id reads back from between them |
| WebSocketClient.ServerRoutesClientMessages | DubSync/frontend/src/services/websocketService.js:89-110 | the consumer routes each client message to its own handler, reads an audio chunk's number as sent, and a start message's language as sent |
| WebSocketClient.IndexOf | DubSync/frontend/src/services/websocketService.js:138-142 | `indexOf`: -1 iff absent, otherwise the first position of the handler |
| WebSocketClient.RemoveFirst | DubSync/frontend/src/services/websocketService.js:136-144 | `splice(indexOf(h), 1)`: when present, removes the first occurrence and keeps the rest in order; otherwise nothing |
| WebSocketClient.RemoveJustAdded | DubSync/frontend/src/services/websocketService.js:129-144 | removing a handler just added (and not present before) restores the list |
| WebSocketClient.Throwing | DubSync/frontend/src/services/websocketService.js:118-124 | the handlers whose errors are caught and logged are exactly the called ones that throw |
| WebSocketClient.ThrowingAppend | DubSync/frontend/src/services/websocketService.js:118-124 | calling one more handler adds it to the failures iff it throws |
| WebSocketClient.MessageType | DubSync/frontend/src/services/websocketService.js:28-35 | a frame's type is read only from a JSON object with a string 'type' |
| WebSocketClient.WebSocketService.constructor | DubSync/frontend/src/services/websocketService.js:2-10 | no socket, no session, not connected, no handlers, zero attempts |
| WebSocketClient.WebSocketService.Connect | DubSync/frontend/src/services/websocketService.js:12-56 | opens a socket on the session's URL and remembers the session; nothing else changes |
| WebSocketClient.WebSocketService.OnOpen | DubSync/frontend/src/services/websocketService.js:21-26 | connected, and the attempt counter is reset |
| WebSocketClient.WebSocketService.OnClose | DubSync/frontend/src/services/websocketService.js:37-44 | disconnected; an abnormal close with attempts left schedules one reconnect at 1000 ms times the new attempt number; the attempt count never exceeds 5 |
| WebSocketClient.WebSocketService.AttemptReconnect | DubSync/frontend/src/services/websocketService.js:58-69 | increments the attempts and schedules a reconnect after a linearly growing delay |
| WebSocketClient.WebSocketService.ReconnectTimerFires | DubSync/frontend/src/services/websocketService.js:62-67 | reconnects to the remembered session, if any |
| WebSocketClient.WebSocketService.Disconnect | DubSync/frontend/src/services/websocketService.js:71-78 | with a socket: closes it with code 1000 and forgets socket and session; without one: nothing |
| WebSocketClient.WebSocketService.SendMessage | DubSync/frontend/src/services/websocketService.js:80-87 | sends iff a socket exists and is connected; otherwise the 'not connected' error and nothing is sent |
| WebSocketClient.WebSocketService.SendAudioChunk | DubSync/frontend/src/services/websocketService.js:89-97 | sends an audio chunk with the sample rate, 16000 by default |
| WebSocketClient.WebSocketService.StartSessionMessage | DubSync/frontend/src/services/websocketService.js:99-104 | sends a start message with the language |
| WebSocketClient.WebSocketService.EndSessionMessage | DubSync/frontend/src/services/websocketService.js:106-110 | sends an end message |
| WebSocketClient.WebSocketService.HandleMessage | DubSync/frontend/src/services/websocketService.js:112-127 | calls exactly the handlers registered for the type, in order; one throwing does not stop the rest; unhandled iff none is registered |
| WebSocketClient.WebSocketService.OnSocketMessage | DubSync/frontend/src/services/websocketService.js:28-35 | a parsed frame with a registered type reaches exactly that type's handlers; any other frame reaches none |
| WebSocketClient.WebSocketService.OnMessage | DubSync/frontend/src/services/websocketService.js:129-134 | appends the handler to its type's list, creating the list when missing |
| WebSocketClient.WebSocketService.OffMessage | DubSync/frontend/src/services/websocketService.js:136-144 | removes the first occurrence of the handler from its type's list, the rest in order; other types are untouched |
| WebSocketClient.WebSocketService.ClearMessageHandlers | DubSync/frontend/src/services/websocketService.js:146-148 | no handler is left; nothing else changes |
| AudioUtils.FlattenAppend | DubSync/frontend/src/utils/audioUtils.js:102-108 | concatenating the chunks distributes over appending a chunk |
| AudioUtils.CeilDivStep | DubSync/frontend/src/utils/audioUtils.js:104 | each loop step adds exactly one chunk to the ceiling count |
| AudioUtils.ChunkAudioData | DubSync/frontend/src/utils/audioUtils.js:102-108 | for a positive chunk size (the guard the Findings row adds; an empty recording may have any size): the chunks concatenate back to the input; there are ceil(n / size) of them; all but the last have exactly `chunkSize` samples; none is empty |
| AudioUtils.ChunkLoopNeverEnds | DubSync/frontend/src/utils/audioUtils.js:103-105 | as written, with a chunk size that is not positive the loop index stays at or below 0 after any number of iterations, so the loop test on a non-empty recording never fails |
| AudioUtils.NoiseGateOnlySilences | DubSync/frontend/src/utils/audioUtils.js:53-61 | same length; a sample is kept iff it is louder than the threshold (or already zero); no sample gets louder |
| AudioUtils.NoiseGateIdempotent | DubSync/frontend/src/utils/audioUtils.js:53-61 | gating twice is gating once |
| AudioUtils.ApplyNoiseGate | DubSync/frontend/src/utils/audioUtils.js:53-61 | a new array holding the gated input, threshold 0.01 by default |
| AudioUtils.ResampleAudio | DubSync/frontend/src/utils/audioUtils.js:29-48 | equal rates return the very same array; otherwise a new array of the interpolated samples |
| AudioUtils.BinaryRoundTrip | DubSync/frontend/src/utils/audioUtils.js:8-18 | the byte-per-character string has one character below 256 per byte, and its char codes give the bytes back |
| AudioUtils.CharCodesRoundTrip | DubSync/frontend/src/utils/audioUtils.js:8-18 | a string of characters below 256 is rebuilt from its char codes |
| AudioUtils.BinaryString | DubSync/frontend/src/utils/audioUtils.js:12-18 | the loop builds the byte-per-character string |
| AudioUtils.AudioToBase64 | DubSync/frontend/src/utils/audioUtils.js:4-24 | `btoa` of the byte-per-character string of the samples' bytes |
| Dashboard.AsWrittenRepliesAreMisencoded | app.py:169-182 | as written, each language's first demo reply opens with a character outside its script |
| Dashboard.DemoRepliesAreInScript | app.py:169-182 | corrected, every demo reply opens with a letter of its language's script |
| Dashboard.DemoReply | app.py:185-187 | a non-empty reply of the language's list, or of Hindi's when it has none |
| Dashboard.Channel0 | app.py:202 | `indata[:, 0]` for multi-channel blocks, the block itself otherwise |
| Dashboard.KeepLast | app.py:203 | a deque with maxlen keeps the newest `capacity` samples, as a suffix of the input |
| Dashboard.FrameCountCounts | app.py:124 | frame k is examined iff `k * 480 < n - 480` |
| Dashboard.ShortAudioIsSilent | app.py:124-131 | audio of at most one frame never counts as speech |
| Dashboard.AllSpeechIsDetected | app.py:121-131 | when every frame is speech, speech is detected |
| Dashboard.AllSpeechCounted | app.py:121-128 | with every frame so far speech, the count equals the frames seen |
| Dashboard.AnyRaisesPersists | app.py:124-135 | once a frame's detector call raises, the whole vote ends in the raised path |
| Dashboard.DetectSpeech | app.py:110-135 | the loop's answer is the vote: more than 30% speech frames, with a raising detector giving True |
| Dashboard.Peak | app.py:93-94 | `np.max(np.abs(x))`: no sample's magnitude exceeds it, and some sample's magnitude equals it |
| Dashboard.QuietIsPeakBelowThreshold | DubSync/backend/transcription/models.py:89 | the engine's per-sample quiet test holds exactly when the peak `np.max(np.abs(x))` is below 0.01 |
| Dashboard.Preprocess | app.py:85-108 | an empty recording becomes 32000 zeros; a positive peak gives `Scaled` by the peak, every sample within [-1, 1]; otherwise the recording is unchanged |
| Dashboard.Scaled | app.py:93-94 | division by a bound p on the magnitudes: the same length, each sample times p gives the original back, and each within [-1, 1] |
| Dashboard.SumAbs | app.py:145 | `torch.sum(torch.abs(t))` is never negative |
| Dashboard.SoundIsNotTooQuiet | app.py:85-146 | a recording with a non-zero sample is scaled to a peak of magnitude 1 and so is not 'very quiet audio' |
| Dashboard.SilenceIsTooQuiet | app.py:85-146 | an all-zero recording, and the empty one that becomes a chunk of zeros, is 'very quiet audio' |
| Dashboard.TooQuietIffSilent | app.py:85-146 | the quiet test after preprocessing holds exactly for recordings whose samples are all zero |
| Dashboard.Pad2 | app.py:266 | two digits reading back as the number |
| Dashboard.TimeOfDay | app.py:266 | `HH:MM:SS`, eight characters with colons at 2 and 5 |
| Dashboard.Stamped | app.py:265-267 | `[HH:MM:SS] text`: '[' then the time of day, then '] ', then the text unchanged |
| Dashboard.TimeOfDayRoundTrip | app.py:266 | the three fields read back as the time of day in seconds |
| Dashboard.ChunkText | app.py:137-193 | gating order: not loaded, then no speech or a too-quiet preprocessed recording give "", a decoder error gives the error text, a blank decode of the preprocessed recording gives "", and otherwise a demo reply |
| Dashboard.DecodedTextNeverReturned | app.py:137-193 | the returned text is always empty, a fixed message, an error text or a demo reply, never the model's own decode |
| Dashboard.AudioProcessor.constructor | app.py:49-62 | not recording, no model, empty buffer and queues |
| Dashboard.AudioProcessor.AttachModel | app.py:332-336 | records whether the model loaded; nothing else changes |
| Dashboard.AudioProcessor.AudioCallback | app.py:195-210 | while recording: channel 0 is appended to the capped buffer and a full 2-second chunk moves to the audio queue; otherwise nothing changes |
| Dashboard.AudioProcessor.TranscribeAudio | app.py:137-193 | the method's answer is `ChunkText` for the processor's model state |
| Dashboard.AudioProcessor.StartRecording | app.py:212-239 | recording is on, even when the stream later fails; nothing else changes |
| Dashboard.AudioProcessor.StopRecording | app.py:241-253 | recording is off; buffer and queues are kept |
| Dashboard.AudioProcessor.WorkerStep | app.py:255-272 | while recording with a chunk queued: dequeues it, and a non-blank text is time-stamped onto the transcription queue |
| Dashboard.AudioProcessor.Publish | app.py:265-267 | a text that is blank after stripping is dropped; any other is appended, time-stamped, to the transcription queue, and nothing else changes |

## Left out

- I/O, concurrency and framework plumbing are not modelled:
  - Channels group add and discard, `disconnect`, thread start and join, queue timeouts, `time.sleep`, Streamlit UI code and logging.
  - The double-checked lock around the singleton. The model is single-threaded.
- Randomness: `random.choice` is the `pick` argument, and `random.uniform` only sleeps.
- The audio payload is decoded by a function parameter, not by base64 and `np.frombuffer`. Which payloads fail, and with which message, is not modelled.
- Floating point is not modelled:
  - Samples are exact reals, so NaN and infinities are out.
  - Non-finite JSON numbers (`json.dumps` raising) are out.
  - The 30% vote `speech / total > 0.3` is stated as `10 * speech > 3 * total`.
- `load_model`, `_create_dummy_model` (never called) and `calculateRMS`, `detectSpeech`, `normalizeAudio`, `generateSessionId`, `formatTimestamp` in audioUtils.js are not part of this model.
  - `load_model`'s effect on the dashboard is the `AttachModel` flag.
  - The model's decode of the preprocessed recording is the `infer` parameter. `preprocess_audio`'s float32 cast and channel mean are not modelled: samples are exact reals of one channel.
- AudioUtils.ResampleAudio: the linear interpolation of unequal rates is a parameter. Only the identity case and the fresh result are stated.
- AudioUtils.AudioToBase64: `btoa` is a parameter, and the samples arrive as their bytes, so the Float32Array byte view is not modelled.
- The `sample_rate` argument of `transcribe` is ignored by the demo engine, so it is not a parameter.
- Views.Post: of the 500 handler, only the SQLite integer overflow is modelled. Other internal exceptions in the views (database failures in end_session and get_session_results) are left out.
- Views.RequestData: a JSON syntax error makes DRF's parser raise. The 500 it causes carries 'JSON parse error - ' followed by the decoder's own message. The model states only that prefix.
- Views.RequestData: a request body is the parsed body of an `application/json` request, and `Malformed` is a JSON syntax error. An empty body, or one without a Content-Type, parses to `{}` and is the `Document` with no fields. Form-encoded and multipart bodies are not modelled: DRF's HTML-input rules would then apply, so that an empty `sample_rate` takes its default. Other content types are not modelled either: they raise UnsupportedMediaType, which the handler answers with a 500 naming the media type.
- Dashboard.DemoReply: the dashboard's operations (`ChunkText`, `AudioProcessor.TranscribeAudio`, `AudioProcessor.WorkerStep`) answer with the corrected phrases of the Findings row, not with the Mac Roman mojibake app.py:170-183 returns as written. The as-written table is `AsWrittenReplies`, and `AsWrittenRepliesAreMisencoded` states what is wrong with it.
- Serializers.ValidateChunk: DRF reports a list of messages per field. The model keeps the first message only.
- Serializers.IntegerField: Python `int()` also accepts underscores between digits and non-ASCII digits. The model accepts only ASCII decimal text.
- Consumer.ChunkColumn: the same `int()` restriction applies.
- JsonValues.Repr: non-printable characters and backslashes are escaped as Python does for `\\`, `\n`, `\r`, `\t` and the quote only. Other escapes are left out.
- Store: the database is taken to be Django's default SQLite. The 64-bit INTEGER bound and its overflow message hold only for the sqlite3 backend, and no settings file among the modelled sources names the backend.
- Store: `max_length` on the session columns is not enforced by SQLite, and the model does not enforce it either.
- Store: the order of rows with equal chunk numbers is the insertion order. SQLite does not promise any order for ties.
- Store: timestamps are ticks of a counter, not dates, so the ISO formatting is not modelled.
- WebSocketClient.WebSocketService.SendMessage: `connect()` while connected keeps `isConnected` true while the new socket is still connecting. A browser's `send` then throws InvalidStateError, but the model sends the message.
- WebSocketClient: handler registry keys are strings here, where the JS `Map` accepts any value. Handlers that change the registry while they run are not modelled.
- The language table is repeated in app.py:21-44. The dashboard uses only its demo replies, and the table there is not modelled separately.

## Findings

| source | as written | input that shows it | evidently intended | confidence | as-written member | corrected member |
|---|---|---|---|---|---|---|
| app.py:169-182 | each `demo_responses` phrase is the UTF-8 encoding of the intended text re-read as Mac Roman | language 'hi' and any non-blank decode: the reply's first character is U+2021 '‡' rather than a Devanagari letter (Urdu's begins with U+00FF) | the phrases in their own scripts, as the backend's `demo_samples` holds them | medium, not executed | Dashboard.AsWrittenRepliesAreMisencoded | Dashboard.DemoRepliesAreInScript |
| DubSync/frontend/src/utils/audioUtils.js:101-107 | `chunkAudioData` advances its index by `chunkSize` and has no guard on it | any non-empty recording with chunk size 0 or a negative one: the index never reaches the length, so the loop never ends and keeps pushing chunks | only positive chunk sizes are used, and the loop ends after ceil(n / size) chunks | high, not executed | AudioUtils.ChunkLoopNeverEnds | AudioUtils.ChunkAudioData |

=== FILE: admin.dfy ===
/** The administration listing's shortened transcription text. */
module Admin {

  /** Texts longer than this are cut in the listing. */
  const PreviewLength := 100

  /**
   * The preview column: a text of at most 100 characters unchanged, a
   * longer one cut to its first 100 characters followed by "...".
   */
  function Preview(text: string): (r: string)
    ensures |text| <= PreviewLength ==> r == text
    ensures |text| > PreviewLength ==> |r| == PreviewLength + 3 && r[PreviewLength..] == "..."
    ensures |r| <= PreviewLength + 3
    ensures |text| > PreviewLength ==> r[..PreviewLength] == text[..PreviewLength]
  {
    if |text| > PreviewLength then text[..PreviewLength] + "..." else text
  }

  /** Two texts share a preview exactly when both are short and equal, or both long with equal first 100 characters. */
  lemma PreviewCollision(a: string, b: string)
    ensures Preview(a) == Preview(b) <==>
      (|a| <= PreviewLength && |b| <= PreviewLength && a == b)
      || (|a| > PreviewLength && |b| > PreviewLength && a[..PreviewLength] == b[..PreviewLength])
  {
    if |a| <= PreviewLength && |b| > PreviewLength {
      assert |Preview(a)| < |Preview(b)|;
    }
    if |b| <= PreviewLength && |a| > PreviewLength {
      assert |Preview(b)| < |Preview(a)|;
    }
  }
}

=== FILE: audio_utils.dfy ===
/**
 * The browser's sample-buffer helpers: splitting a recording into chunks,
 * the noise gate, the resampler's shortcut and the byte loop that prepares
 * a buffer for base64.
 */
module AudioUtils {
  import opened Wrappers

  /** A byte of a Uint8Array view. */
  newtype byte = x: int | 0 <= x < 256

  const DefaultGateThreshold := 0.01

  function Min(a: int, b: int): int
  {
    if a <= b then a else b
  }

  function Abs(x: real): real
  {
    if x < 0.0 then -x else x
  }

  /** The chunks laid end to end. */
  function Flatten(chunks: seq<seq<real>>): seq<real>
  {
    if chunks == [] then [] else chunks[0] + Flatten(chunks[1..])
  }

  lemma {:induction false} FlattenAppend(chunks: seq<seq<real>>, last: seq<real>)
    ensures Flatten(chunks + [last]) == Flatten(chunks) + last
  {
    if chunks != [] {
      assert (chunks + [last])[1..] == chunks[1..] + [last];
      FlattenAppend(chunks[1..], last);
    }
  }

  /** The number of chunks of `size` needed to hold `n` elements. */
  function CeilDiv(n: nat, size: nat): nat
    requires size > 0
  {
    (n + size - 1) / size
  }

  lemma MulLtCancel(c: int, a: int, b: int)
    requires c > 0 && c * a < c * b
    ensures a < b
  {
  }

  /** The quotient is the q with size * q <= x < size * (q + 1). */
  lemma DivUnique(x: nat, size: nat, q: nat)
    requires size > 0 && size * q <= x < size * q + size
    ensures x / size == q
  {
    var d := x / size;
    var r := x % size;
    assert x == size * d + r && 0 <= r < size;
    assert size * q < size * (d + 1);
    MulLtCancel(size, q, d + 1);
    assert size * d < size * (q + 1);
    MulLtCancel(size, d, q + 1);
  }

  lemma CeilDivStep(k: nat, size: nat, n: nat)
    requires size > 0 && size * k < n
    ensures CeilDiv(Min(size * (k + 1), n), size) == k + 1
  {
    var m := Min(size * (k + 1), n);
    assert size * (k + 1) <= m + size - 1 < size * (k + 1) + size;
    DivUnique(m + size - 1, size, k + 1);
  }

  /** The loop index of chunkAudioData after `n` iterations of `i += chunkSize`, as written. */
  function LoopIndexAfter(chunkSize: int, n: nat): int
  {
    if n == 0 then 0 else LoopIndexAfter(chunkSize, n - 1) + chunkSize
  }

  /**
   * As written, a chunk size that is not positive never lets the loop
   * index reach the end of a non-empty recording: the loop test
   * `i < audioData.length` holds after every number of iterations.
   */
  lemma {:induction false} ChunkLoopNeverEnds(audio: seq<real>, chunkSize: int, n: nat)
    requires chunkSize <= 0 && |audio| > 0
    ensures LoopIndexAfter(chunkSize, n) <= 0 < |audio|
  {
    if n > 0 {
      ChunkLoopNeverEnds(audio, chunkSize, n - 1);
    }
  }

  /**
   * chunkAudioData: consecutive slices of `chunkSize` elements, the last one
   * possibly shorter. A chunk size that is not positive never advances the
   * loop, so only an empty recording can be split with it.
   */
  method ChunkAudioData(audio: seq<real>, chunkSize: int) returns (chunks: seq<seq<real>>)
    requires chunkSize > 0 || audio == []
    ensures Flatten(chunks) == audio
    ensures audio == [] ==> chunks == []
    ensures chunkSize > 0 ==> |chunks| == CeilDiv(|audio|, chunkSize)
    ensures forall k :: 0 <= k < |chunks| ==> 0 < |chunks[k]| <= chunkSize
    ensures forall k :: 0 <= k < |chunks| - 1 ==> |chunks[k]| == chunkSize
  {
    chunks := [];
    var i := 0;
    while i < |audio|
      invariant 0 <= i
      invariant audio != [] ==> chunkSize > 0
      invariant chunkSize > 0 ==> i == chunkSize * |chunks|
      invariant Flatten(chunks) == audio[..Min(i, |audio|)]
      invariant chunkSize > 0 ==> |chunks| == CeilDiv(Min(i, |audio|), chunkSize)
      invariant forall k :: 0 <= k < |chunks| ==> 0 < |chunks[k]| <= chunkSize
      invariant i <= |audio| ==> forall k :: 0 <= k < |chunks| ==> |chunks[k]| == chunkSize
      invariant forall k :: 0 <= k < |chunks| - 1 ==> |chunks[k]| == chunkSize
      decreases |audio| - i
    {
      var end := Min(i + chunkSize, |audio|);
      assert i + chunkSize == chunkSize * (|chunks| + 1);
      CeilDivStep(|chunks|, chunkSize, |audio|);
      FlattenAppend(chunks, audio[i..end]);
      assert audio[..i] + audio[i..end] == audio[..end];
      chunks := chunks + [audio[i..end]];
      i := i + chunkSize;
      assert Min(i, |audio|) == end;
    }
  }

  /** The noise gate: a sample whose magnitude exceeds the threshold is kept, any other becomes 0. */
  function NoiseGate(audio: seq<real>, threshold: real): (r: seq<real>)
  {
    seq(|audio|, i requires 0 <= i < |audio| => if Abs(audio[i]) > threshold then audio[i] else 0.0)
  }

  /** The gate only silences: each sample is kept or zeroed, never amplified, and the length is kept. */
  lemma NoiseGateOnlySilences(audio: seq<real>, threshold: real)
    ensures |NoiseGate(audio, threshold)| == |audio|
    ensures forall i :: 0 <= i < |audio| ==>
      (NoiseGate(audio, threshold)[i] == audio[i] <==> Abs(audio[i]) > threshold || audio[i] == 0.0)
    ensures forall i :: 0 <= i < |audio| ==> Abs(NoiseGate(audio, threshold)[i]) <= Abs(audio[i])
  {
  }

  /** With a non-negative threshold, gating a gated signal changes nothing. */
  lemma NoiseGateIdempotent(audio: seq<real>, threshold: real)
    requires threshold >= 0.0
    ensures NoiseGate(NoiseGate(audio, threshold), threshold) == NoiseGate(audio, threshold)
  {
  }

  /** applyNoiseGate: fills a new array sample by sample; the threshold defaults to 0.01. */
  method ApplyNoiseGate(audio: array<real>, threshold: Option<real>) returns (result: array<real>)
    ensures fresh(result)
    ensures result[..] == NoiseGate(audio[..], if threshold.Some? then threshold.value else DefaultGateThreshold)
  {
    var t := if threshold.Some? then threshold.value else DefaultGateThreshold;
    result := new real[audio.Length];
    var i := 0;
    while i < audio.Length
      invariant 0 <= i <= audio.Length
      invariant forall k :: 0 <= k < i ==> result[k] == NoiseGate(audio[..], t)[k]
    {
      result[i] := if Abs(audio[i]) > t then audio[i] else 0.0;
      i := i + 1;
    }
  }

  /**
   * resampleAudio: equal rates return the very same array; otherwise a new
   * array of interpolated samples, the interpolation standing for the
   * floating-point linear resampler.
   */
  method ResampleAudio(audio: array<real>, originalRate: real, targetRate: real,
                       interpolate: (seq<real>, real, real) -> seq<real>)
    returns (result: array<real>)
    ensures originalRate == targetRate ==> result == audio
    ensures originalRate != targetRate ==> fresh(result) && result[..] == interpolate(audio[..], originalRate, targetRate)
  {
    if originalRate == targetRate {
      return audio;
    }
    var samples := interpolate(audio[..], originalRate, targetRate);
    result := new real[|samples|](i requires 0 <= i < |samples| => samples[i]);
  }

  /** The binary string of a byte buffer: one character per byte, whose code is the byte. */
  function BinaryOf(bytes: seq<byte>): (s: string)
  {
    seq(|bytes|, i requires 0 <= i < |bytes| => (bytes[i] as int) as char)
  }

  /** The bytes a binary string encodes, reading each character code as a byte. */
  function CharCodes(s: string): (bytes: seq<byte>)
    requires forall i :: 0 <= i < |s| ==> s[i] as int < 256
  {
    seq(|s|, i requires 0 <= i < |s| => (s[i] as int) as byte)
  }

  /** The byte loop loses nothing: the binary string decodes back to the buffer. */
  lemma BinaryRoundTrip(bytes: seq<byte>)
    ensures |BinaryOf(bytes)| == |bytes|
    ensures forall i :: 0 <= i < |bytes| ==> BinaryOf(bytes)[i] as int < 256
    ensures CharCodes(BinaryOf(bytes)) == bytes
  {
  }

  /** ... and every binary string is the image of exactly the buffer its codes spell. */
  lemma CharCodesRoundTrip(s: string)
    requires forall i :: 0 <= i < |s| ==> s[i] as int < 256
    ensures BinaryOf(CharCodes(s)) == s
  {
  }

  /** The loop of audioToBase64: appends String.fromCharCode of each byte in order. */
  method BinaryString(bytes: seq<byte>) returns (binary: string)
    ensures binary == BinaryOf(bytes)
  {
    binary := "";
    var i := 0;
    while i < |bytes|
      invariant 0 <= i <= |bytes|
      invariant binary == BinaryOf(bytes[..i])
    {
      binary := binary + [(bytes[i] as int) as char];
      i := i + 1;
    }
    assert bytes[..|bytes|] == bytes;
  }

  /**
   * audioToBase64: the buffer's bytes (`bytes`, the Float32Array viewed as
   * bytes) turned into a binary string and handed to btoa.
   */
  method AudioToBase64(bytes: seq<byte>, btoa: string -> string) returns (encoded: string)
    ensures encoded == btoa(BinaryOf(bytes))
  {
    var binary := BinaryString(bytes);
    encoded := btoa(binary);
  }
}

=== FILE: consumer.dfy ===
/**
 * The WebSocket consumer: one object per connection, bound to the session
 * id of its URL, answering each inbound text frame with exactly one
 * outbound message.
 */
module Consumer {
  import opened Wrappers
  import opened JsonValues
  import opened Text
  import Engine
  import opened Store

  /** The outbound messages, by their 'type' field. */
  datatype ServerMessage =
    | ConnectionEstablished(sessionId: string)
    | SessionStarted(sessionId: string, languageCode: Json)
    | TranscriptionResult(sessionId: string, chunkNumber: Json, transcription: string, languageCode: Json)
    | SessionEnded(sessionId: string)
    | ErrorMessage(message: string)

  const InvalidJsonError := "Invalid JSON format"
  const InternalError := "Internal server error"
  const NoAudioError := "No audio data provided"
  const NotNullChunkError := "NOT NULL constraint failed: transcription_transcriptionresult.chunk_number"

  function UnknownTypeError(messageType: Json): string
  {
    "Unknown message type: " + Show(messageType)
  }

  function ChunkFailedError(reason: string): string
  {
    "Failed to process audio chunk: " + reason
  }

  /** The text both transcribers answer with when transcription raises. */
  function TranscriptionErrorText(reason: string): string
  {
    "[Transcription error: " + reason + "]"
  }

  function ExpectedNumberError(v: Json): string
  {
    "Field 'chunk_number' expected a number but got " + Repr(v) + "."
  }

  /** Python's int() of a float: truncation toward zero. */
  function Truncate(x: real): (r: int)
    ensures 0.0 <= x ==> r as real <= x < r as real + 1.0
    ensures x < 0.0 ==> r as real - 1.0 < x <= r as real
  {
    if x >= 0.0 then x.Floor else -((-x).Floor)
  }

  /**
   * The chunk_number column of a new result row, from the JSON value as
   * it arrived: the integer field's int() conversion (a bool is 0 or 1, a
   * float is truncated, a string is stripped and read as a decimal
   * integer), a refusal of null by the NOT NULL constraint, and a
   * ValueError or TypeError for anything else.
   */
  function ChunkColumn(v: Json): (r: Result<int, string>)
    ensures v.JInt? ==> r == Ok(v.i)
    ensures v.JBool? ==> r == Ok(if v.b then 1 else 0)
    ensures v.JNull? ==> r == Err(NotNullChunkError)
    ensures v.JFloat? ==> r == Ok(Truncate(v.value))
    ensures v.JStr? ==> (r.Ok? <==> ParseDecimal(Strip(v.s)).Some?)
    ensures v.JStr? && r.Ok? ==> Some(r.value) == ParseDecimal(Strip(v.s))
    ensures (v.JStr? || v.JCompound?) && r.Err? ==> r.error == ExpectedNumberError(v)
  {
    match v
    case JNull => Err(NotNullChunkError)
    case JBool(b) => Ok(if b then 1 else 0)
    case JInt(i) => Ok(i)
    case JFloat(x, _) => Ok(Truncate(x))
    case JStr(s) =>
      var parsed := ParseDecimal(Strip(s));
      if parsed.Some? then Ok(parsed.value) else Err(ExpectedNumberError(v))
    case JCompound(_, _) => Err(ExpectedNumberError(v))
  }

  /** Decimal text has no white space at either end. */
  lemma {:induction false} DecimalIsStripped(i: int)
    ensures Strip(Decimal(i)) == Decimal(i)
  {
    var s := Decimal(i);
    if i < 0 {
      assert s[0] == '-';
    }
    DigitsAreNotSpace(if i < 0 then -i else i);
    assert !IsSpace(s[0]) && !IsSpace(s[|s| - 1]);
    StripKeepsTrimmed(s);
  }

  lemma DigitsAreNotSpace(n: nat)
    ensures forall k :: 0 <= k < |Digits(n)| ==> !IsSpace(Digits(n)[k])
  {
  }

  /** A chunk number sent as the decimal text of an integer is stored as that integer. */
  lemma ChunkColumnReadsDecimalText(i: int)
    ensures ChunkColumn(JStr(Decimal(i))) == Ok(i)
  {
    DecimalIsStripped(i);
    DecimalRoundTrip(i);
  }

  /** The language_code column of a new session: str() of the value; None breaks NOT NULL. */
  function LanguageColumn(v: Json): (r: Option<string>)
    ensures r.None? <==> v.JNull?
    ensures v.JStr? ==> r == Some(v.s)
  {
    if v.JNull? then None else Some(Show(v))
  }

  /** Dispatch on a frame: which handler, if any, a frame goes to. */
  datatype Route = BadJson | NotAnObject | AudioChunk(data: map<string, Json>)
                 | StartSession(data: map<string, Json>) | EndSession | UnknownType(messageType: Json)

  function RouteOf(frame: Frame): (r: Route)
    ensures frame.Malformed? <==> r.BadJson?
    ensures frame.NonObject? <==> r.NotAnObject?
    ensures r.AudioChunk? <==> frame.Document? && Get(frame.fields, "type", JNull) == JStr("audio_chunk")
    ensures r.StartSession? <==> frame.Document? && Get(frame.fields, "type", JNull) == JStr("start_session")
    ensures r.EndSession? <==> frame.Document? && Get(frame.fields, "type", JNull) == JStr("end_session")
    ensures r.UnknownType? ==> frame.Document? && r.messageType == Get(frame.fields, "type", JNull)
  {
    match frame
    case Malformed => BadJson
    case NonObject(_) => NotAnObject
    case Document(fields) =>
      var t := Get(fields, "type", JNull);
      if t == JStr("audio_chunk") then AudioChunk(fields)
      else if t == JStr("start_session") then StartSession(fields)
      else if t == JStr("end_session") then EndSession
      else UnknownType(t)
  }

  /**
   * The store after transcribe_audio saved (or did not save) one chunk:
   * with the session missing nothing is written; else a convertible chunk
   * number that fits the 64-bit column appends one row holding the text,
   * and any other writes nothing and replaces the text by the error.
   */
  ghost predicate Saved(id: string, chunkNumber: Json, spoken: string,
                        sessions0: map<string, Session>, results0: seq<ResultRow>, clock0: nat,
                        sessions: map<string, Session>, results: seq<ResultRow>, clock: nat, text: string)
  {
    && sessions == sessions0
    && (id !in sessions0 ==> results == results0 && clock == clock0 && text == spoken)
    && (id in sessions0 && ChunkColumn(chunkNumber).Ok? && FitsInteger(ChunkColumn(chunkNumber).value) ==>
          && results == results0 + [ResultRow(id, ChunkColumn(chunkNumber).value, spoken, None, clock0)]
          && clock == clock0 + 1 && text == spoken)
    && (id in sessions0 && ChunkColumn(chunkNumber).Ok? && !FitsInteger(ChunkColumn(chunkNumber).value) ==>
          results == results0 && clock == clock0 && text == TranscriptionErrorText(IntegerOverflowError))
    && (id in sessions0 && ChunkColumn(chunkNumber).Err? ==>
          results == results0 && clock == clock0 && text == TranscriptionErrorText(ChunkColumn(chunkNumber).error))
  }

  /**
   * The reply and store after handle_audio_chunk: a falsy or missing
   * payload and a payload that does not decode are answered with an error
   * and write nothing; any other chunk is transcribed, saved as `Saved`
   * says, and echoed with the chunk number and language as they arrived.
   */
  ghost predicate ChunkHandled(id: string, data: map<string, Json>, decode: Engine.AudioDecoder, pick: nat,
                               sessions0: map<string, Session>, results0: seq<ResultRow>, clock0: nat,
                               sessions: map<string, Session>, results: seq<ResultRow>, clock: nat,
                               reply: ServerMessage)
  {
    var audio := Get(data, "audio_data", JNull);
    && sessions == sessions0
    && (!Truthy(audio) ==>
          reply == ErrorMessage(NoAudioError) && results == results0 && clock == clock0)
    && (Truthy(audio) && decode(audio).Err? ==>
          reply == ErrorMessage(ChunkFailedError(decode(audio).error)) && results == results0 && clock == clock0)
    && (Truthy(audio) && decode(audio).Ok? ==>
          var language := Get(data, "language_code", JStr("hi"));
          var chunkNumber := Get(data, "chunk_number", JInt(0));
          && reply.TranscriptionResult?
          && reply == TranscriptionResult(id, chunkNumber, reply.transcription, language)
          && Saved(id, chunkNumber, Engine.Transcribe(decode(audio).value, language, pick),
                   sessions0, results0, clock0, sessions, results, clock, reply.transcription))
  }

  /** Whether get_or_create of handle_start_session breaks NOT NULL: a missing session and a null language. */
  predicate StartFails(id: string, data: map<string, Json>, sessions0: map<string, Session>)
  {
    id !in sessions0 && LanguageColumn(Get(data, "language_code", JStr("hi"))).None?
  }

  /** The sessions after a successful get_or_create: an existing session untouched, else a new active one. */
  function SessionsAfterStart(id: string, data: map<string, Json>, sessions0: map<string, Session>, clock0: nat)
    : (sessions: map<string, Session>)
    requires !StartFails(id, data, sessions0)
    ensures id in sessions && sessions.Keys == sessions0.Keys + {id}
    ensures forall other :: other in sessions0 ==> sessions[other] == sessions0[other]
    ensures id !in sessions0 ==>
      sessions[id] == Session(LanguageColumn(Get(data, "language_code", JStr("hi"))).value, true, clock0, clock0)
  {
    if id in sessions0 then sessions0
    else sessions0[id := Session(LanguageColumn(Get(data, "language_code", JStr("hi"))).value, true, clock0, clock0)]
  }

  /** The sessions after handle_end_session: a stored session deactivated and touched, nothing else. */
  function SessionsAfterEnd(id: string, sessions0: map<string, Session>, clock0: nat): (sessions: map<string, Session>)
    ensures sessions.Keys == sessions0.Keys
    ensures forall other :: other in sessions0 && other != id ==> sessions[other] == sessions0[other]
    ensures id in sessions0 ==> sessions[id] == sessions0[id].(isActive := false, updatedAt := clock0)
  {
    if id in sessions0 then sessions0[id := sessions0[id].(isActive := false, updatedAt := clock0)] else sessions0
  }

  class TranscriptionConsumer {
    const sessionId: string
    const db: Database
    const engines: Engine.EngineRegistry
    /** Every message sent on this connection, oldest first. */
    var sent: seq<ServerMessage>

    ghost predicate Valid()
      reads this, db, engines
    {
      db.Valid() && engines.Valid()
    }

    /** connect: binds the URL's session id and confirms the connection. */
    constructor Connect(sessionId: string, db: Database, engines: Engine.EngineRegistry)
      requires db.Valid() && engines.Valid()
      ensures Valid()
      ensures this.sessionId == sessionId && this.db == db && this.engines == engines
      ensures sent == [ConnectionEstablished(sessionId)]
    {
      this.sessionId := sessionId;
      this.db := db;
      this.engines := engines;
      sent := [ConnectionEstablished(sessionId)];
    }

    /** transcribe_audio: the engine's text for the samples, saved when the session exists. */
    method TranscribeAudio(samples: seq<real>, languageCode: Json, chunkNumber: Json, pick: nat)
      returns (text: string)
      requires Valid()
      modifies db, engines
      ensures Valid()
      ensures Saved(sessionId, chunkNumber, Engine.Transcribe(samples, languageCode, pick),
                    old(db.sessions), old(db.results), old(db.clock), db.sessions, db.results, db.clock, text)
    {
      var engine := engines.GetInstance();
      var spoken: string;
      if |samples| == 0 {
        spoken := "";
      } else {
        spoken := Engine.Transcribe(samples, languageCode, pick);
      }
      if sessionId in db.sessions {
        var column := ChunkColumn(chunkNumber);
        if column.Err? {
          return TranscriptionErrorText(column.error);
        }
        var ok := db.AppendResult(sessionId, column.value, spoken, None);
        if !ok {
          return TranscriptionErrorText(IntegerOverflowError);
        }
      }
      text := spoken;
    }

    /**
     * handle_audio_chunk: a falsy or missing payload and a payload that
     * does not decode are answered with an error and write nothing; any
     * other chunk is transcribed and echoed with the chunk number and
     * language as they arrived.
     */
    method HandleAudioChunk(data: map<string, Json>, decode: Engine.AudioDecoder, pick: nat)
      requires Valid()
      modifies this, db, engines
      ensures Valid()
      ensures old(sent) < sent && |sent| == |old(sent)| + 1
      ensures ChunkHandled(sessionId, data, decode, pick, old(db.sessions), old(db.results), old(db.clock),
                           db.sessions, db.results, db.clock, sent[|sent| - 1])
    {
      var audio := Get(data, "audio_data", JNull);
      var language := Get(data, "language_code", JStr("hi"));
      var chunkNumber := Get(data, "chunk_number", JInt(0));
      if !Truthy(audio) {
        sent := sent + [ErrorMessage(NoAudioError)];
        return;
      }
      var decoded := decode(audio);
      if decoded.Err? {
        sent := sent + [ErrorMessage(ChunkFailedError(decoded.error))];
        return;
      }
      var text := TranscribeAudio(decoded.value, language, chunkNumber, pick);
      sent := sent + [TranscriptionResult(sessionId, chunkNumber, text, language)];
    }

    /**
     * handle_start_session: get-or-create of the connection's session. An
     * existing session is left as it is; a new one stores str() of the
     * requested language, and a null language breaks NOT NULL, which the
     * caller reports (`failed`) with nothing written or sent.
     */
    method HandleStartSession(data: map<string, Json>) returns (failed: bool)
      requires Valid()
      modifies this, db
      ensures Valid() && db.results == old(db.results)
      ensures failed <==> StartFails(sessionId, data, old(db.sessions))
      ensures failed ==> sent == old(sent) && db.sessions == old(db.sessions) && db.clock == old(db.clock)
      ensures !failed ==>
        && sent == old(sent) + [SessionStarted(sessionId, Get(data, "language_code", JStr("hi")))]
        && db.sessions == SessionsAfterStart(sessionId, data, old(db.sessions), old(db.clock))
        && db.clock == (if sessionId in old(db.sessions) then old(db.clock) else old(db.clock) + 1)
    {
      var language := Get(data, "language_code", JStr("hi"));
      if sessionId !in db.sessions {
        var column := LanguageColumn(language);
        if column.None? {
          return true;
        }
        var created := db.GetOrCreate(sessionId, column.value);
      }
      sent := sent + [SessionStarted(sessionId, language)];
      failed := false;
    }

    /** handle_end_session: deactivates the session when it exists; confirms either way. */
    method HandleEndSession()
      requires Valid()
      modifies this, db
      ensures Valid() && db.results == old(db.results)
      ensures sent == old(sent) + [SessionEnded(sessionId)]
      ensures db.sessions == SessionsAfterEnd(sessionId, old(db.sessions), old(db.clock))
      ensures db.clock == (if sessionId in old(db.sessions) then old(db.clock) + 1 else old(db.clock))
    {
      var found := db.Deactivate(sessionId);
      sent := sent + [SessionEnded(sessionId)];
    }

    /**
     * receive: exactly one reply per frame. A frame that is not JSON, is
     * not an object, or names an unknown type is answered with an error
     * and changes nothing in the store.
     */
    method Receive(frame: Frame, decode: Engine.AudioDecoder, pick: nat)
      requires Valid()
      modifies this, db, engines
      ensures Valid()
      ensures old(sent) < sent && |sent| == |old(sent)| + 1
      ensures RouteOf(frame).BadJson? ==> sent[|sent| - 1] == ErrorMessage(InvalidJsonError)
      ensures RouteOf(frame).NotAnObject? ==> sent[|sent| - 1] == ErrorMessage(InternalError)
      ensures RouteOf(frame).UnknownType? ==> sent[|sent| - 1] == ErrorMessage(UnknownTypeError(RouteOf(frame).messageType))
      ensures RouteOf(frame).AudioChunk? ==>
        ChunkHandled(sessionId, frame.fields, decode, pick, old(db.sessions), old(db.results), old(db.clock),
                     db.sessions, db.results, db.clock, sent[|sent| - 1])
      ensures RouteOf(frame).StartSession? && StartFails(sessionId, frame.fields, old(db.sessions)) ==>
        && sent[|sent| - 1] == ErrorMessage(InternalError)
        && db.sessions == old(db.sessions) && db.clock == old(db.clock)
      ensures RouteOf(frame).StartSession? && !StartFails(sessionId, frame.fields, old(db.sessions)) ==>
        && sent[|sent| - 1] == SessionStarted(sessionId, Get(frame.fields, "language_code", JStr("hi")))
        && db.sessions == SessionsAfterStart(sessionId, frame.fields, old(db.sessions), old(db.clock))
        && db.clock == (if sessionId in old(db.sessions) then old(db.clock) else old(db.clock) + 1)
      ensures RouteOf(frame).EndSession? ==>
        && sent[|sent| - 1] == SessionEnded(sessionId)
        && db.sessions == SessionsAfterEnd(sessionId, old(db.sessions), old(db.clock))
        && db.clock == (if sessionId in old(db.sessions) then old(db.clock) + 1 else old(db.clock))
      ensures !(RouteOf(frame).AudioChunk? || RouteOf(frame).StartSession? || RouteOf(frame).EndSession?) ==>
        db.sessions == old(db.sessions) && db.results == old(db.results) && db.clock == old(db.clock)
      ensures !RouteOf(frame).AudioChunk? ==> db.results == old(db.results)
    {
      var route := RouteOf(frame);
      match route {
        case BadJson =>
          sent := sent + [ErrorMessage(InvalidJsonError)];
        case NotAnObject =>
          sent := sent + [ErrorMessage(InternalError)];
        case UnknownType(t) =>
          sent := sent + [ErrorMessage(UnknownTypeError(t))];
        case AudioChunk(data) =>
          HandleAudioChunk(data, decode, pick);
        case StartSession(data) =>
          var failed := HandleStartSession(data);
          if failed {
            sent := sent + [ErrorMessage(InternalError)];
          }
        case EndSession =>
          HandleEndSession();
      }
    }
  }
}

=== FILE: dashboard.dfy ===
/**
 * The stand-alone recording dashboard's audio processor: the rolling
 * sample buffer fed by the audio callback, the frame vote over a voice
 * activity detector, the gating of a chunk's transcription and the worker
 * step that time-stamps non-blank results.
 */
module Dashboard {
  import opened Wrappers
  import opened JsonValues
  import opened Text
  import Engine
  import AudioUtils
  import Consumer

  const SampleRate := 16000
  /** int(sample_rate * 2.0): two seconds of samples. */
  const ChunkSize := 32000
  /** The deque's maxlen: ten seconds of samples. */
  const BufferCapacity := SampleRate * 10
  /** int(sample_rate * 30 / 1000): one 30 ms frame of the detector. */
  const FrameSize := 480
  const ModelNotLoaded := "[Model not loaded]"


  /**
   * demo_responses as the file spells it: each phrase is the UTF-8 encoding
   * of the intended text read back one byte per character in the Mac Roman
   * code page, so the phrases are not in their languages' scripts (checked
   * below on the opening character of each language's first phrase).
   */
  const HindiAsWritten: seq<string> := ["‡§®‡§Æ‡§∏‡•ç‡§§‡•á", "‡§Ø‡§π ‡§è‡§ï ‡§™‡§∞‡•Ä‡§ï‡•ç‡§∑‡§£ ‡§π‡•à", "‡§Ü‡§™‡§ï‡§æ ‡§∏‡•ç‡§µ‡§æ‡§ó‡§§ ‡§π‡•à"]
  const BengaliAsWritten: seq<string> := ["‡¶®‡¶Æ‡¶∏‡ßç‡¶ï‡¶æ‡¶∞", "‡¶è‡¶ü‡¶ø ‡¶è‡¶ï‡¶ü‡¶ø ‡¶™‡¶∞‡ßÄ‡¶ï‡ßç‡¶∑‡¶æ", "‡¶Ü‡¶™‡¶®‡¶æ‡¶ï‡ßá ‡¶∏‡ßç‡¶¨‡¶æ‡¶ó‡¶§‡¶Æ"]
  const TamilAsWritten: seq<string> := ["‡Æµ‡Æ£‡Æï‡Øç‡Æï‡ÆÆ‡Øç", "‡Æá‡Æ§‡ØÅ ‡Æí‡Æ∞‡ØÅ ‡Æö‡Øã‡Æ§‡Æ©‡Øà", "‡Æâ‡Æô‡Øç‡Æï‡Æ≥‡Øà ‡Æµ‡Æ∞‡Æµ‡Øá‡Æ±‡Øç‡Æï‡Æø‡Æ±‡Øã‡ÆÆ‡Øç"]
  const TeluguAsWritten: seq<string> := ["‡∞®‡∞Æ‡∞∏‡±ç‡∞ï‡∞æ‡∞∞‡∞Ç", "‡∞á‡∞¶‡∞ø ‡∞í‡∞ï ‡∞™‡∞∞‡±Ä‡∞ï‡±ç‡∞∑", "‡∞Æ‡±Ä‡∞ï‡±Å ‡∞∏‡±ç‡∞µ‡∞æ‡∞ó‡∞§‡∞Ç"]
  const GujaratiAsWritten: seq<string> := ["‡™®‡™Æ‡™∏‡´ç‡™§‡´á", "‡™Ü ‡™è‡™ï ‡™™‡™∞‡´Ä‡™ï‡´ç‡™∑‡™£ ‡™õ‡´á", "‡™§‡™Æ‡™æ‡™∞‡´Å‡™Ç ‡™∏‡´ç‡™µ‡™æ‡™ó‡™§ ‡™õ‡´á"]
  const MarathiAsWritten: seq<string> := ["‡§®‡§Æ‡§∏‡•ç‡§ï‡§æ‡§∞", "‡§π‡•Ä ‡§è‡§ï ‡§ö‡§æ‡§ö‡§£‡•Ä ‡§Ü‡§π‡•á", "‡§§‡•Å‡§Æ‡§ö‡•á ‡§∏‡•ç‡§µ‡§æ‡§ó‡§§ ‡§Ü‡§π‡•á"]
  const PunjabiAsWritten: seq<string> := ["‡®∏‡®§ ‡®∏‡©ç‡®∞‡©Ä ‡®Ö‡®ï‡®æ‡®≤", "‡®á‡®π ‡®á‡©±‡®ï ‡®ü‡©à‡®∏‡®ü ‡®π‡©à", "‡®§‡©Å‡®π‡®æ‡®°‡®æ ‡®∏‡©Å‡®Ü‡®ó‡®§ ‡®π‡©à"]
  const KannadaAsWritten: seq<string> := ["‡≤®‡≤Æ‡≤∏‡≥ç‡≤ï‡≤æ‡≤∞", "‡≤á‡≤¶‡≥Å ‡≤í‡≤Ç‡≤¶‡≥Å ‡≤™‡≤∞‡≥Ä‡≤ï‡≥ç‡≤∑‡≥Ü", "‡≤®‡≤ø‡≤Æ‡≤ó‡≥Ü ‡≤∏‡≥ç‡≤µ‡≤æ‡≤ó‡≤§"]
  const MalayalamAsWritten: seq<string> := ["‡¥®‡¥Æ‡¥∏‡µç‡¥ï‡¥æ‡¥∞‡¥Ç", "‡¥á‡¥§‡µç ‡¥í‡¥∞‡µÅ ‡¥™‡¥∞‡µÄ‡¥ï‡µç‡¥∑‡¥£‡¥Æ‡¥æ‡¥£‡µç", "‡¥®‡¥ø‡¥ô‡µç‡¥ô‡¥≥‡µÜ ‡¥∏‡µç‡¥µ‡¥æ‡¥ó‡¥§‡¥Ç ‡¥ö‡µÜ‡¥Ø‡µç‡¥Ø‡µÅ‡¥®‡µç‡¥®‡µÅ"]
  const OdiaAsWritten: seq<string> := ["‡¨®‡¨Æ‡¨∏‡≠ç‡¨ï‡¨æ‡¨∞", "‡¨è‡¨π‡¨æ ‡¨è‡¨ï ‡¨™‡¨∞‡≠Ä‡¨ï‡≠ç‡¨∑‡¨æ", "‡¨Ü‡¨™‡¨£‡¨ô‡≠ç‡¨ï‡≠Å ‡¨∏‡≠ç‡≠±‡¨æ‡¨ó‡¨§"]
  const AssameseAsWritten: seq<string> := ["‡¶®‡¶Æ‡¶∏‡ßç‡¶ï‡¶æ‡ß∞", "‡¶è‡¶á‡¶ü‡ßã ‡¶è‡¶ü‡¶æ ‡¶™‡ß∞‡ßÄ‡¶ï‡ßç‡¶∑‡¶æ", "‡¶Ü‡¶™‡ßã‡¶®‡¶æ‡¶ï ‡¶∏‡ßç‡¶¨‡¶æ‡¶ó‡¶§‡¶Æ"]
  const UrduAsWritten: seq<string> := ["ÿßŸÑÿ≥ŸÑÿßŸÖ ÿπŸÑ€å⁄©ŸÖ", "€å€Å ÿß€å⁄© Ÿπ€åÿ≥Ÿπ €Å€í", "ÿ¢Ÿæ ⁄©ÿß ÿÆ€åÿ± ŸÖŸÇÿØŸÖ"]

  const AsWrittenReplies: Engine.PhraseTable := [
    ("hi", HindiAsWritten),
    ("bn", BengaliAsWritten),
    ("ta", TamilAsWritten),
    ("te", TeluguAsWritten),
    ("gu", GujaratiAsWritten),
    ("mr", MarathiAsWritten),
    ("pa", PunjabiAsWritten),
    ("kn", KannadaAsWritten),
    ("ml", MalayalamAsWritten),
    ("or", OdiaAsWritten),
    ("as", AssameseAsWritten),
    ("ur", UrduAsWritten)
  ]

  /** demo_responses with the phrases in their own scripts. */
  const HindiReplies: seq<string> := ["नमस्ते", "यह एक परीक्षण है", "आपका स्वागत है"]
  const BengaliReplies: seq<string> := ["নমস্কার", "এটি একটি পরীক্ষা", "আপনাকে স্বাগতম"]
  const TamilReplies: seq<string> := ["வணக்கம்", "இது ஒரு சோதனை", "உங்களை வரவேற்கிறோம்"]
  const TeluguReplies: seq<string> := ["నమస్కారం", "ఇది ఒక పరీక్ష", "మీకు స్వాగతం"]
  const GujaratiReplies: seq<string> := ["નમસ્તે", "આ એક પરીક્ષણ છે", "તમારું સ્વાગત છે"]
  const MarathiReplies: seq<string> := ["नमस्कार", "ही एक चाचणी आहे", "तुमचे स्वागत आहे"]
  const PunjabiReplies: seq<string> := ["ਸਤ ਸ੍ਰੀ ਅਕਾਲ", "ਇਹ ਇੱਕ ਟੈਸਟ ਹੈ", "ਤੁਹਾਡਾ ਸੁਆਗਤ ਹੈ"]
  const KannadaReplies: seq<string> := ["ನಮಸ್ಕಾರ", "ಇದು ಒಂದು ಪರೀಕ್ಷೆ", "ನಿಮಗೆ ಸ್ವಾಗತ"]
  const MalayalamReplies: seq<string> := ["നമസ്കാരം", "ഇത് ഒരു പരീക്ഷണമാണ്", "നിങ്ങളെ സ്വാഗതം ചെയ്യുന്നു"]
  const OdiaReplies: seq<string> := ["ନମସ୍କାର", "ଏହା ଏକ ପରୀକ୍ଷା", "ଆପଣଙ୍କୁ ସ୍ୱାଗତ"]
  const AssameseReplies: seq<string> := ["নমস্কাৰ", "এইটো এটা পৰীক্ষা", "আপোনাক স্বাগতম"]
  const UrduReplies: seq<string> := ["السلام علیکم", "یہ ایک ٹیسٹ ہے", "آپ کا خیر مقدم"]

  const DemoReplies: Engine.PhraseTable := [
    ("hi", HindiReplies),
    ("bn", BengaliReplies),
    ("ta", TamilReplies),
    ("te", TeluguReplies),
    ("gu", GujaratiReplies),
    ("mr", MarathiReplies),
    ("pa", PunjabiReplies),
    ("kn", KannadaReplies),
    ("ml", MalayalamReplies),
    ("or", OdiaReplies),
    ("as", AssameseReplies),
    ("ur", UrduReplies)
  ]

  /** The Unicode block of each language's script, as first and last code point. */
  function ScriptOf(code: string): (char, char)
  {
    if code == "hi" || code == "mr" then ('\U{0900}', '\U{097F}')
    else if code == "bn" || code == "as" then ('\U{0980}', '\U{09FF}')
    else if code == "pa" then ('\U{0A00}', '\U{0A7F}')
    else if code == "gu" then ('\U{0A80}', '\U{0AFF}')
    else if code == "or" then ('\U{0B00}', '\U{0B7F}')
    else if code == "ta" then ('\U{0B80}', '\U{0BFF}')
    else if code == "te" then ('\U{0C00}', '\U{0C7F}')
    else if code == "kn" then ('\U{0C80}', '\U{0CFF}')
    else if code == "ml" then ('\U{0D00}', '\U{0D7F}')
    else ('\U{0600}', '\U{06FF}')
  }

  predicate InScript(c: char, code: string)
  {
    ScriptOf(code).0 <= c <= ScriptOf(code).1
  }

  /** The first reply is non-empty and opens with a character outside the language's script. */
  predicate Misencoded(code: string, replies: seq<string>)
  {
    |replies| > 0 && replies[0] != "" && !InScript(replies[0][0], code)
  }

  /** Every reply is non-empty and opens with a letter of the language's script. */
  predicate Encoded(code: string, replies: seq<string>)
  {
    forall k :: 0 <= k < |replies| ==> replies[k] != "" && InScript(replies[k][0], code)
  }

  /** As written, the first reply of every language opens with a character outside its script. */
  lemma AsWrittenRepliesAreMisencoded()
    ensures forall i :: 0 <= i < |AsWrittenReplies| ==> Misencoded(AsWrittenReplies[i].0, AsWrittenReplies[i].1)
  {
    assert HindiAsWritten[0][0] == '\U{2021}';
    assert BengaliAsWritten[0][0] == '\U{2021}';
    assert TamilAsWritten[0][0] == '\U{2021}';
    assert TeluguAsWritten[0][0] == '\U{2021}';
    assert GujaratiAsWritten[0][0] == '\U{2021}';
    assert MarathiAsWritten[0][0] == '\U{2021}';
    assert PunjabiAsWritten[0][0] == '\U{2021}';
    assert KannadaAsWritten[0][0] == '\U{2021}';
    assert MalayalamAsWritten[0][0] == '\U{2021}';
    assert OdiaAsWritten[0][0] == '\U{2021}';
    assert AssameseAsWritten[0][0] == '\U{2021}';
    assert UrduAsWritten[0][0] == '\U{FF}';
  }

  /** Corrected, every reply opens with a letter of its language's script. */
  lemma DemoRepliesAreInScript()
    ensures forall i :: 0 <= i < |DemoReplies| ==> Encoded(DemoReplies[i].0, DemoReplies[i].1)
  {
    FirstRepliesAreInScript();
    SecondRepliesAreInScript();
    ThirdRepliesAreInScript();
    FourthRepliesAreInScript();
    var t := DemoReplies;
    assert |t| == 12;
  }

  lemma FirstRepliesAreInScript()
    ensures Encoded("hi", HindiReplies) && Encoded("bn", BengaliReplies) && Encoded("gu", GujaratiReplies)
  {
    InScriptReplies("hi", HindiReplies);
    InScriptReplies("bn", BengaliReplies);
    InScriptReplies("gu", GujaratiReplies);
  }

  lemma SecondRepliesAreInScript()
    ensures Encoded("mr", MarathiReplies) && Encoded("pa", PunjabiReplies) && Encoded("ur", UrduReplies)
  {
    InScriptReplies("mr", MarathiReplies);
    InScriptReplies("pa", PunjabiReplies);
    InScriptReplies("ur", UrduReplies);
  }

  lemma ThirdRepliesAreInScript()
    ensures Encoded("ta", TamilReplies) && Encoded("te", TeluguReplies) && Encoded("kn", KannadaReplies)
  {
    InScriptReplies("ta", TamilReplies);
    InScriptReplies("te", TeluguReplies);
    InScriptReplies("kn", KannadaReplies);
  }

  lemma FourthRepliesAreInScript()
    ensures Encoded("ml", MalayalamReplies) && Encoded("or", OdiaReplies) && Encoded("as", AssameseReplies)
  {
    InScriptReplies("ml", MalayalamReplies);
    InScriptReplies("or", OdiaReplies);
    InScriptReplies("as", AssameseReplies);
  }

  /** Three replies that open with letters of the code's script are encoded. */
  lemma InScriptReplies(code: string, replies: seq<string>)
    requires |replies| == 3 && forall k :: 0 <= k < 3 ==> replies[k] != ""
    requires var (lo, hi) := ScriptOf(code);
      lo <= replies[0][0] <= hi && lo <= replies[1][0] <= hi && lo <= replies[2][0] <= hi
    ensures Encoded(code, replies)
  {
  }

  /** `demo_responses.get(language, demo_responses['hi'])`, then the draw. */
  function DemoReply(language: string, pick: nat): (r: string)
    ensures r != ""
    ensures Engine.FindPhrases(DemoReplies, language).Some? ==> r in Engine.FindPhrases(DemoReplies, language).value
    ensures Engine.FindPhrases(DemoReplies, language).None? ==> r in HindiReplies
  {
    var t := DemoReplies;
    assert t[0] == ("hi", HindiReplies);
    assert Engine.ThreeNonEmptyPhrases(t);
    var replies := match Engine.FindPhrases(t, language)
      case Some(p) => p
      case None => HindiReplies;
    replies[pick % |replies|]
  }

  /** One block from the input stream: mono samples, or frames whose first value is channel 0. */
  datatype Block = Mono(samples: seq<real>) | Multi(frames: seq<(real, seq<real>)>)

  /** `indata[:, 0] if indata.ndim > 1 else indata`. */
  function Channel0(block: Block): (r: seq<real>)
    ensures block.Mono? ==> r == block.samples
    ensures block.Multi? ==> |r| == |block.frames| && forall k :: 0 <= k < |r| ==> r[k] == block.frames[k].0
  {
    match block
    case Mono(samples) => samples
    case Multi(frames) => seq(|frames|, k requires 0 <= k < |frames| => frames[k].0)
  }

  /** A bounded deque after extend: the newest `capacity` elements, the oldest dropped. */
  function KeepLast(s: seq<real>, capacity: nat): (r: seq<real>)
    ensures |r| == if |s| <= capacity then |s| else capacity
    ensures s == s[..|s| - |r|] + r
  {
    if |s| <= capacity then s else s[|s| - capacity..]
  }

  /** What the detector says of one 30 ms frame; it may also raise. */
  datatype VadAnswer = Speech | Silence | Raises

  /** The number of frames scanned: offsets 0, 480, ... strictly below n - 480. */
  function FrameCount(n: nat): nat
  {
    if n <= FrameSize then 0 else (n - 1) / FrameSize
  }

  /** The frames scanned are exactly those whose offset lies below n - 480. */
  lemma FrameCountCounts(n: nat, k: nat)
    ensures k < FrameCount(n) <==> FrameSize * k < n - FrameSize
  {
  }

  function Frame(samples: seq<real>, k: nat): seq<real>
    requires k < FrameCount(|samples|)
  {
    FrameCountCounts(|samples|, k);
    samples[FrameSize * k..FrameSize * k + FrameSize]
  }

  /** The number of speech answers among the first `k` frames. */
  function SpeechFrames(samples: seq<real>, vad: seq<real> -> VadAnswer, k: nat): (n: nat)
    requires k <= FrameCount(|samples|)
    ensures n <= k
  {
    if k == 0 then 0
    else SpeechFrames(samples, vad, k - 1) + (if vad(Frame(samples, k - 1)) == Speech then 1 else 0)
  }

  /** Whether the detector raises on one of the first `k` frames. */
  predicate AnyRaises(samples: seq<real>, vad: seq<real> -> VadAnswer, k: nat)
    requires k <= FrameCount(|samples|)
  {
    k > 0 && (AnyRaises(samples, vad, k - 1) || vad(Frame(samples, k - 1)) == Raises)
  }

  /**
   * The verdict of detect_speech: a raising detector means "process it";
   * otherwise at least one frame was scanned and speech frames are more
   * than 30% of them (speech / total > 0.3, stated over integers).
   */
  predicate SpeechDetected(samples: seq<real>, vad: seq<real> -> VadAnswer)
  {
    var total := FrameCount(|samples|);
    AnyRaises(samples, vad, total) || (total > 0 && 10 * SpeechFrames(samples, vad, total) > 3 * total)
  }

  /** Audio of at most one frame (480 samples) is never speech: no frame is scanned, and the detector is never called. */
  lemma ShortAudioIsSilent(samples: seq<real>, vad: seq<real> -> VadAnswer)
    requires |samples| <= FrameSize
    ensures !SpeechDetected(samples, vad)
  {
  }

  /** Speech in every scanned frame of a long enough recording is detected. */
  lemma {:induction false} AllSpeechIsDetected(samples: seq<real>, vad: seq<real> -> VadAnswer)
    requires FrameCount(|samples|) > 0
    requires forall k :: 0 <= k < FrameCount(|samples|) ==> vad(Frame(samples, k)) == Speech
    ensures SpeechDetected(samples, vad)
  {
    AllSpeechCounted(samples, vad, FrameCount(|samples|));
  }

  lemma {:induction false} AllSpeechCounted(samples: seq<real>, vad: seq<real> -> VadAnswer, k: nat)
    requires k <= FrameCount(|samples|)
    requires forall j :: 0 <= j < k ==> vad(Frame(samples, j)) == Speech
    ensures SpeechFrames(samples, vad, k) == k
  {
    if k > 0 {
      AllSpeechCounted(samples, vad, k - 1);
    }
  }

  lemma {:induction false} AnyRaisesPersists(samples: seq<real>, vad: seq<real> -> VadAnswer, k: nat, m: nat)
    requires k <= m <= FrameCount(|samples|) && AnyRaises(samples, vad, k)
    ensures AnyRaises(samples, vad, m)
    decreases m - k
  {
    if k < m {
      AnyRaisesPersists(samples, vad, k + 1, m);
    }
  }

  /** detect_speech: scans the frames, counting speech, and answers true at once if the detector raises. */
  method DetectSpeech(samples: seq<real>, vad: seq<real> -> VadAnswer) returns (speech: bool)
    ensures speech == SpeechDetected(samples, vad)
  {
    var speechFrames := 0;
    var totalFrames := 0;
    var i := 0;
    while i < |samples| - FrameSize
      invariant i == FrameSize * totalFrames
      invariant totalFrames <= FrameCount(|samples|)
      invariant totalFrames < FrameCount(|samples|) <==> i < |samples| - FrameSize
      invariant speechFrames == SpeechFrames(samples, vad, totalFrames)
      invariant !AnyRaises(samples, vad, totalFrames)
      decreases |samples| - i
    {
      FrameCountCounts(|samples|, totalFrames + 1);
      var answer := vad(samples[i..i + FrameSize]);
      assert samples[i..i + FrameSize] == Frame(samples, totalFrames);
      if answer == Raises {
        AnyRaisesPersists(samples, vad, totalFrames + 1, FrameCount(|samples|));
        return true;
      }
      if answer == Speech {
        speechFrames := speechFrames + 1;
      }
      totalFrames := totalFrames + 1;
      i := i + FrameSize;
    }
    speech := totalFrames > 0 && 10 * speechFrames > 3 * totalFrames;
  }

  /** "HH" of a number below 100, with a leading zero. */
  function Pad2(n: nat): (s: string)
    requires n < 100
    ensures |s| == 2 && AllDigits(s) && DigitsValue(s) == n
  {
    var s := [DigitChar(n / 10), DigitChar(n % 10)];
    assert s[..1] == [DigitChar(n / 10)] && s[..1][..0] == [];
    assert DigitsValue(s[..1]) == n / 10;
    s
  }

  /** time.strftime("%H:%M:%S") of a local time given in seconds. */
  function TimeOfDay(localSeconds: nat): (s: string)
    ensures |s| == 8 && s[2] == ':' && s[5] == ':'
  {
    var t := localSeconds % 86400;
    Pad2(t / 3600) + ":" + Pad2(t / 60 % 60) + ":" + Pad2(t % 60)
  }

  /** Reading the stamp back gives the time of day it was made from. */
  lemma TimeOfDayRoundTrip(localSeconds: nat)
    ensures var s := TimeOfDay(localSeconds);
      AllDigits(s[0..2]) && AllDigits(s[3..5]) && AllDigits(s[6..8])
      && DigitsValue(s[0..2]) * 3600 + DigitsValue(s[3..5]) * 60 + DigitsValue(s[6..8]) == localSeconds % 86400
  {
    var t := localSeconds % 86400;
    var h, m, sec := Pad2(t / 3600), Pad2(t / 60 % 60), Pad2(t % 60);
    var s := TimeOfDay(localSeconds);
    assert s == h + ":" + m + ":" + sec;
    assert s[0..2] == h;
    assert s[3..5] == m;
    assert s[6..8] == sec;
    ClockArithmetic(t);
  }

  lemma ClockArithmetic(t: nat)
    ensures t / 3600 * 3600 + t / 60 % 60 * 60 + t % 60 == t
  {
    assert t / 60 == t / 3600 * 60 + t / 60 % 60;
    assert t == t / 60 * 60 + t % 60;
  }

  /** The line the worker queues for a transcription: the bracketed time of day, a space, then the text. */
  function Stamped(localSeconds: nat, text: string): (line: string)
    ensures |line| == 11 + |text|
    ensures line[0] == '[' && line[1..9] == TimeOfDay(localSeconds) && line[9..11] == "] "
    ensures line[11..] == text
  {
    "[" + TimeOfDay(localSeconds) + "] " + text
  }

  /** `np.max(np.abs(x))` of a non-empty recording. */
  function Peak(s: seq<real>): (m: real)
    requires |s| > 0
    ensures forall k :: 0 <= k < |s| ==> AudioUtils.Abs(s[k]) <= m
    ensures exists k :: 0 <= k < |s| && AudioUtils.Abs(s[k]) == m
  {
    if |s| == 1 then AudioUtils.Abs(s[0])
    else
      var m := Peak(s[..|s| - 1]);
      assert forall k :: 0 <= k < |s| - 1 ==> s[..|s| - 1][k] == s[k];
      if AudioUtils.Abs(s[|s| - 1]) > m then AudioUtils.Abs(s[|s| - 1]) else m
  }

  /** The engine's quiet test is the peak test: every sample within 0.01 exactly when the peak is below 0.01. */
  lemma QuietIsPeakBelowThreshold(s: seq<real>)
    requires |s| > 0
    ensures Engine.Quiet(s) <==> Peak(s) < 0.01
  {
    var j :| 0 <= j < |s| && AudioUtils.Abs(s[j]) == Peak(s);
    if Engine.Quiet(s) {
      assert -0.01 < s[j] < 0.01;
    } else {
      var k :| 0 <= k < |s| && !(-0.01 < s[k] < 0.01);
      assert AudioUtils.Abs(s[k]) <= Peak(s);
    }
  }

  /** preprocess_audio: scaled by the peak when it is positive; an empty recording becomes a chunk of zeros. */
  function Preprocess(s: seq<real>): (t: seq<real>)
    ensures |s| == 0 ==> |t| == ChunkSize && forall k :: 0 <= k < |t| ==> t[k] == 0.0
    ensures |s| > 0 && Peak(s) > 0.0 ==>
      && |t| == |s| && t == Scaled(s, Peak(s))
      && forall k :: 0 <= k < |s| ==> AudioUtils.Abs(t[k]) <= 1.0
    ensures |s| > 0 && Peak(s) <= 0.0 ==> t == s
  {
    if |s| == 0 then seq(ChunkSize, _ => 0.0)
    else if Peak(s) > 0.0 then Scaled(s, Peak(s))
    else s
  }

  /** Every sample divided by `p`, a bound on their magnitudes. */
  function Scaled(s: seq<real>, p: real): (t: seq<real>)
    requires p > 0.0 && forall k :: 0 <= k < |s| ==> AudioUtils.Abs(s[k]) <= p
    ensures |t| == |s|
    ensures forall k :: 0 <= k < |s| ==> t[k] * p == s[k] && AudioUtils.Abs(t[k]) <= 1.0
  {
    var t := seq(|s|, k requires 0 <= k < |s| => s[k] / p);
    forall k | 0 <= k < |s|
      ensures t[k] * p == s[k] && AudioUtils.Abs(t[k]) <= 1.0
    {
      ScaleWithinUnit(s[k], p);
    }
    t
  }

  /** Dividing a sample by a peak at least its magnitude gives back the sample when multiplied, and stays within [-1, 1]. */
  lemma ScaleWithinUnit(x: real, p: real)
    requires p > 0.0 && AudioUtils.Abs(x) <= p
    ensures (x / p) * p == x && AudioUtils.Abs(x / p) <= 1.0
  {
    if x >= 0.0 {
      assert x / p <= p / p;
    } else {
      assert -x / p <= p / p;
      assert (-x) / p == -(x / p);
    }
  }

  /** `torch.sum(torch.abs(t))`. */
  function SumAbs(t: seq<real>): (r: real)
    ensures r >= 0.0
  {
    if t == [] then 0.0 else SumAbs(t[..|t| - 1]) + AudioUtils.Abs(t[|t| - 1])
  }

  /** The "very quiet audio" test of transcribe_audio, on the preprocessed recording. */
  predicate TooQuiet(samples: seq<real>)
  {
    SumAbs(Preprocess(samples)) < 0.01
  }

  lemma {:induction false} SumAbsBoundsEach(t: seq<real>, k: nat)
    requires k < |t|
    ensures AudioUtils.Abs(t[k]) <= SumAbs(t)
    decreases |t|
  {
    if k < |t| - 1 {
      SumAbsBoundsEach(t[..|t| - 1], k);
    }
  }

  lemma {:induction false} SumAbsOfZeros(t: seq<real>)
    requires forall k :: 0 <= k < |t| ==> t[k] == 0.0
    ensures SumAbs(t) == 0.0
    decreases |t|
  {
    if t != [] {
      SumAbsOfZeros(t[..|t| - 1]);
    }
  }

  lemma UnitScale(x: real, p: real)
    requires p > 0.0 && AudioUtils.Abs(x) == p
    ensures AudioUtils.Abs(x / p) == 1.0
  {
    if x >= 0.0 {
      assert x / p == 1.0;
    } else {
      assert x == -p;
      assert (-p) / p == -(p / p);
    }
  }

  /** A recording with a non-zero sample is scaled to a peak of magnitude 1, so it sums to at least 1. */
  lemma SoundIsNotTooQuiet(samples: seq<real>, k: nat)
    requires k < |samples| && samples[k] != 0.0
    ensures !TooQuiet(samples)
  {
    var p := Peak(samples);
    assert AudioUtils.Abs(samples[k]) <= p;
    var j :| 0 <= j < |samples| && AudioUtils.Abs(samples[j]) == p;
    var t := Preprocess(samples);
    assert t[j] == samples[j] / p;
    UnitScale(samples[j], p);
    SumAbsBoundsEach(t, j);
  }

  /** An all-zero recording, the empty one included, preprocesses to zeros. */
  lemma SilenceIsTooQuiet(samples: seq<real>)
    requires forall k :: 0 <= k < |samples| ==> samples[k] == 0.0
    ensures TooQuiet(samples)
  {
    if |samples| > 0 {
      var j :| 0 <= j < |samples| && AudioUtils.Abs(samples[j]) == Peak(samples);
      assert Preprocess(samples) == samples;
    }
    SumAbsOfZeros(Preprocess(samples));
  }

  /**
   * Exactly the all-zero recordings, the empty one included, are too
   * quiet: preprocessing scales any other to a peak of magnitude 1.
   */
  lemma TooQuietIffSilent(samples: seq<real>)
    ensures TooQuiet(samples) <==> forall k :: 0 <= k < |samples| ==> samples[k] == 0.0
  {
    if forall k :: 0 <= k < |samples| ==> samples[k] == 0.0 {
      SilenceIsTooQuiet(samples);
    } else {
      var k :| 0 <= k < |samples| && samples[k] != 0.0;
      SoundIsNotTooQuiet(samples, k);
    }
  }

  /**
   * The text transcribe_audio gives a chunk, with the detector and the
   * model's decoding of the preprocessed recording as parameters (`infer`
   * fails with the exception's text). The checks run in this order: the
   * model, speech, quietness, the model's own output; a non-blank decoding
   * is answered with a demo reply.
   */
  function ChunkText(loaded: bool, samples: seq<real>, language: string, vad: seq<real> -> VadAnswer,
                     infer: seq<real> -> Result<string, string>, pick: nat): (text: string)
    ensures !loaded ==> text == ModelNotLoaded
    ensures loaded && !SpeechDetected(samples, vad) ==> text == ""
    ensures loaded && SpeechDetected(samples, vad) && TooQuiet(samples) ==> text == ""
    ensures loaded && SpeechDetected(samples, vad) && !TooQuiet(samples) ==>
      var decoded := infer(Preprocess(samples));
      && (decoded.Err? ==> text == Consumer.TranscriptionErrorText(decoded.error))
      && (decoded.Ok? && IsBlank(decoded.value) ==> text == "")
      && (decoded.Ok? && !IsBlank(decoded.value) ==> text == DemoReply(language, pick))
  {
    if !loaded then ModelNotLoaded
    else if !SpeechDetected(samples, vad) then ""
    else if TooQuiet(samples) then ""
    else match infer(Preprocess(samples))
      case Err(e) => Consumer.TranscriptionErrorText(e)
      case Ok(decoded) => if Strip(decoded) != "" then DemoReply(language, pick) else Strip(decoded)
  }

  class AudioProcessor {
    var isRecording: bool
    /** Whether both the model and the processor are set. */
    var modelLoaded: bool
    /** The rolling deque of samples not yet cut into chunks. */
    var buffer: seq<real>
    /** Chunks waiting for the worker, oldest first. */
    var audioQueue: seq<seq<real>>
    /** Stamped transcriptions waiting for the page, oldest first. */
    var transcriptionQueue: seq<string>

    /** The deque never holds more than its capacity, and every queued chunk has exactly ChunkSize samples. */
    ghost predicate Valid()
      reads this
    {
      && |buffer| <= BufferCapacity
      && forall k :: 0 <= k < |audioQueue| ==> |audioQueue[k]| == ChunkSize
    }

    constructor()
      ensures Valid()
      ensures !isRecording && !modelLoaded && buffer == [] && audioQueue == [] && transcriptionQueue == []
    {
      isRecording := false;
      modelLoaded := false;
      buffer := [];
      audioQueue := [];
      transcriptionQueue := [];
    }

    /** The page stores load_model's pair; a failed load leaves both unset. */
    method AttachModel(loaded: bool)
      requires Valid()
      modifies this
      ensures Valid() && modelLoaded == loaded
      ensures isRecording == old(isRecording) && buffer == old(buffer)
      ensures audioQueue == old(audioQueue) && transcriptionQueue == old(transcriptionQueue)
    {
      modelLoaded := loaded;
    }

    /**
     * audio_callback: while recording, channel 0 of the block joins the
     * deque (the oldest samples dropped beyond its capacity); once it holds
     * a chunk's worth, exactly the first ChunkSize samples are queued and
     * the rest stays, in order. At most one chunk per block.
     */
    method AudioCallback(block: Block)
      requires Valid()
      modifies this
      ensures Valid()
      ensures isRecording == old(isRecording) && modelLoaded == old(modelLoaded)
      ensures transcriptionQueue == old(transcriptionQueue)
      ensures !old(isRecording) ==> buffer == old(buffer) && audioQueue == old(audioQueue)
      ensures old(isRecording) ==>
        var kept := KeepLast(old(buffer) + Channel0(block), BufferCapacity);
        && (|kept| >= ChunkSize ==> audioQueue == old(audioQueue) + [kept[..ChunkSize]] && buffer == kept[ChunkSize..])
        && (|kept| < ChunkSize ==> audioQueue == old(audioQueue) && buffer == kept)
    {
      if isRecording {
        var kept := KeepLast(buffer + Channel0(block), BufferCapacity);
        if |kept| >= ChunkSize {
          audioQueue := audioQueue + [kept[..ChunkSize]];
          buffer := kept[ChunkSize..];
        } else {
          buffer := kept;
        }
      }
    }

    /** transcribe_audio: the detector runs as a loop; the rest is the gating of ChunkText. */
    method TranscribeAudio(samples: seq<real>, language: string, vad: seq<real> -> VadAnswer,
                           infer: seq<real> -> Result<string, string>, pick: nat)
      returns (text: string)
      ensures text == ChunkText(modelLoaded, samples, language, vad, infer, pick)
    {
      if !modelLoaded {
        return ModelNotLoaded;
      }
      var speech := DetectSpeech(samples, vad);
      if !speech {
        return "";
      }
      var tensor := Preprocess(samples);
      if SumAbs(tensor) < 0.01 {
        return "";
      }
      var decoded := infer(tensor);
      if decoded.Err? {
        return Consumer.TranscriptionErrorText(decoded.error);
      }
      if Strip(decoded.value) != "" {
        return DemoReply(language, pick);
      }
      text := Strip(decoded.value);
    }

    /** start_recording: sets the flag before opening the stream and the worker, so it stays set if they fail. */
    method StartRecording()
      requires Valid()
      modifies this
      ensures Valid() && isRecording
      ensures modelLoaded == old(modelLoaded) && buffer == old(buffer)
      ensures audioQueue == old(audioQueue) && transcriptionQueue == old(transcriptionQueue)
    {
      isRecording := true;
    }

    /** stop_recording: clears the flag; buffered and queued audio stay. */
    method StopRecording()
      requires Valid()
      modifies this
      ensures Valid() && !isRecording
      ensures modelLoaded == old(modelLoaded) && buffer == old(buffer)
      ensures audioQueue == old(audioQueue) && transcriptionQueue == old(transcriptionQueue)
    {
      isRecording := false;
    }

    /**
     * One pass of _transcription_worker while recording: takes the oldest
     * chunk, if any, transcribes it and queues it stamped with the local
     * time, unless the text is blank.
     */
    method WorkerStep(language: string, localSeconds: nat, vad: seq<real> -> VadAnswer,
                      infer: seq<real> -> Result<string, string>, pick: nat)
      requires Valid()
      modifies this
      ensures Valid()
      ensures isRecording == old(isRecording) && modelLoaded == old(modelLoaded) && buffer == old(buffer)
      ensures !old(isRecording) || old(audioQueue) == [] ==>
        audioQueue == old(audioQueue) && transcriptionQueue == old(transcriptionQueue)
      ensures old(isRecording) && old(audioQueue) != [] ==>
        var text := ChunkText(modelLoaded, old(audioQueue)[0], language, vad, infer, pick);
        && audioQueue == old(audioQueue)[1..]
        && transcriptionQueue == old(transcriptionQueue) + (if IsBlank(text) then [] else [Stamped(localSeconds, text)])
    {
      if !isRecording || audioQueue == [] {
        return;
      }
      var chunk := audioQueue[0];
      audioQueue := audioQueue[1..];
      var text := TranscribeAudio(chunk, language, vad, infer, pick);
      Publish(text, localSeconds);
    }

    /** The worker's hand-off: a text that strips to something is time-stamped onto the transcription queue. */
    method Publish(text: string, localSeconds: nat)
      modifies this
      ensures isRecording == old(isRecording) && modelLoaded == old(modelLoaded)
      ensures buffer == old(buffer) && audioQueue == old(audioQueue)
      ensures transcriptionQueue == old(transcriptionQueue) + (if IsBlank(text) then [] else [Stamped(localSeconds, text)])
    {
      if Strip(text) != "" {
        transcriptionQueue := transcriptionQueue + [Stamped(localSeconds, text)];
      }
    }
  }

  /** The model's own decoded text is never shown: a chunk's text is a marker, a demo reply, or empty. */
  lemma DecodedTextNeverReturned(loaded: bool, samples: seq<real>, language: string, vad: seq<real> -> VadAnswer,
                                 infer: seq<real> -> Result<string, string>, pick: nat)
    ensures var text := ChunkText(loaded, samples, language, vad, infer, pick);
      || text == "" || text == ModelNotLoaded || (exists e :: text == Consumer.TranscriptionErrorText(e))
      || (Engine.FindPhrases(DemoReplies, language).Some? && text in Engine.FindPhrases(DemoReplies, language).value)
      || text in HindiReplies
  {
    var text := ChunkText(loaded, samples, language, vad, infer, pick);
    if loaded && SpeechDetected(samples, vad) && !TooQuiet(samples) && infer(Preprocess(samples)).Err? {
      assert text == Consumer.TranscriptionErrorText(infer(Preprocess(samples)).error);
    }
  }
}

=== FILE: engine.dfy ===
/**
 * The demo transcription engine: the lazily created, process-wide engine
 * object (IndicConformerModel and its get_instance) and its transcribe
 * operation, which picks a canned phrase for the language.
 */
module Engine {
  import opened Wrappers
  import opened JsonValues

  /** A dictionary from language code to its demo phrases, in literal order. */
  type PhraseTable = seq<(string, seq<string>)>

  /**
   * base64.b64decode followed by np.frombuffer(dtype=float32), as both
   * front ends apply them to a payload: the samples, or the text of the
   * exception either of them raised.
   */
  type AudioDecoder = Json -> Result<seq<real>, string>

  /** The demo_samples dictionary of transcribe. */
  const DemoSamples: PhraseTable := [
    ("hi", ["नमस्ते, मैं हिंदी में बोल रहा हूं", "यह एक परीक्षण है", "आपका स्वागत है"]),
    ("bn", ["নমস্কার, আমি বাংলায় কথা বলছি", "এটি একটি পরীক্ষা", "আপনাকে স্বাগতম"]),
    ("ta", ["வணக்கம், நான் தமிழில் பேசுகிறேன்", "இது ஒரு சோதனை", "உங்களை வரவேற்கிறோம்"]),
    ("te", ["నమస్కారం, నేను తెలుగులో మాట్లాడుతున్నాను", "ఇది ఒక పరీక్ష", "మీకు స్వాగతం"]),
    ("gu", ["નમસ્તે, હું ગુજરાતીમાં બોલી રહ્યો છું", "આ એક પરીક્ષણ છે", "તમારું સ્વાગત છે"]),
    ("mr", ["नमस्कार, मी मराठीत बोलत आहे", "ही एक चाचणी आहे", "तुमचे स्वागत आहे"]),
    ("pa", ["ਸਤ ਸ੍ਰੀ ਅਕਾਲ, ਮੈਂ ਪੰਜਾਬੀ ਵਿੱਚ ਬੋਲ ਰਿਹਾ ਹਾਂ", "ਇਹ ਇੱਕ ਟੈਸਟ ਹੈ", "ਤੁਹਾਡਾ ਸੁਆਗਤ ਹੈ"]),
    ("kn", ["ನಮಸ್ಕಾರ, ನಾನು ಕನ್ನಡದಲ್ಲಿ ಮಾತನಾಡುತ್ತಿದ್ದೇನೆ", "ಇದು ಒಂದು ಪರೀಕ್ಷೆ", "ನಿಮಗೆ ಸ್ವಾಗತ"]),
    ("ml", ["നമസ്കാരം, ഞാൻ മലയാളത്തിൽ സംസാരിക്കുന്നു", "ഇത് ഒരു പരീക്ഷണമാണ്", "നിങ്ങളെ സ്വാഗതം ചെയ്യുന്നു"]),
    ("or", ["ନମସ୍କାର, ମୁଁ ଓଡ଼ିଆରେ କହୁଛି", "ଏହା ଏକ ପରୀକ୍ଷା", "ଆପଣଙ୍କୁ ସ୍ୱାଗତ"]),
    ("as", ["নমস্কাৰ, মই অসমীয়াত কৈছো", "এইটো এটা পৰীক্ষা", "আপোনাক স্বাগতম"]),
    ("ur", ["السلام علیکم، میں اردو میں بول رہا ہوں", "یہ ایک ٹیسٹ ہے", "آپ کا خیر مقدم"])
  ]

  /** The phrases listed for a code, if the table has an entry for it. */
  function FindPhrases(t: PhraseTable, code: string): (r: Option<seq<string>>)
    ensures r.None? <==> forall i :: 0 <= i < |t| ==> t[i].0 != code
    ensures r.Some? ==> exists i :: 0 <= i < |t| && t[i] == (code, r.value)
  {
    if t == [] then None
    else if t[0].0 == code then Some(t[0].1)
    else
      var r := FindPhrases(t[1..], code);
      assert forall i :: 1 <= i < |t| ==> t[i] == t[1..][i - 1];
      r
  }

  /** Every entry lists exactly three phrases, none of them empty. */
  predicate ThreeNonEmptyPhrases(t: PhraseTable)
  {
    forall i :: 0 <= i < |t| ==> |t[i].1| == 3 && forall k :: 0 <= k < 3 ==> t[i].1[k] != ""
  }

  lemma DemoSamplesWellFormed()
    ensures ThreeNonEmptyPhrases(DemoSamples)
    ensures FindPhrases(DemoSamples, "hi").Some?
  {
    var t := DemoSamples;
    assert t[0].0 == "hi";
  }

  /** In a table of three non-empty phrases per entry, whatever a lookup finds is three non-empty phrases. */
  lemma FoundPhrasesWellFormed(t: PhraseTable, code: string)
    requires ThreeNonEmptyPhrases(t)
    ensures FindPhrases(t, code).Some? ==>
      |FindPhrases(t, code).value| == 3 && forall k :: 0 <= k < 3 ==> FindPhrases(t, code).value[k] != ""
  {
  }

  /**
   * `demo_samples.get(code, demo_samples['hi'])`: the code's own phrases, or
   * the Hindi ones for any code (string or not) without an entry.
   */
  function PhrasesFor(code: Json): (r: seq<string>)
    requires Hashable(code)
    ensures |r| == 3 && forall k :: 0 <= k < 3 ==> r[k] != ""
    ensures code.JStr? && FindPhrases(DemoSamples, code.s).Some? ==> r == FindPhrases(DemoSamples, code.s).value
    ensures !(code.JStr? && FindPhrases(DemoSamples, code.s).Some?) ==> r == FindPhrases(DemoSamples, "hi").value
  {
    DemoSamplesWellFormed();
    FoundPhrasesWellFormed(DemoSamples, "hi");
    var fallback := FindPhrases(DemoSamples, "hi").value;
    if code.JStr? then
      FoundPhrasesWellFormed(DemoSamples, code.s);
      match FindPhrases(DemoSamples, code.s)
      case Some(p) => p
      case None => fallback
    else fallback
  }

  /** `np.max(np.abs(samples)) < 0.01`, over exact reals, for a non-empty array. */
  predicate Quiet(samples: seq<real>): (b: bool)
    ensures b <==> forall k :: 0 <= k < |samples| ==> (if samples[k] < 0.0 then -samples[k] else samples[k]) < 0.01
  {
    forall k :: 0 <= k < |samples| ==> -0.01 < samples[k] < 0.01
  }

  /** The text transcribe returns when the phrase lookup raises. */
  function FallbackText(code: Json): string
  {
    "Demo transcription for " + Show(code)
  }

  /**
   * transcribe(samples, sample_rate, code). The sample rate is accepted and
   * ignored by the demo, so it is not a parameter here; `pick` stands for
   * random.choice's draw. An empty or quiet array gives "" before any
   * lookup; otherwise a phrase of the code's list (Hindi as fallback), and
   * an unhashable code makes the lookup raise, which transcribe turns into
   * its fallback text instead of failing.
   */
  function Transcribe(samples: seq<real>, code: Json, pick: nat): (r: string)
    ensures |samples| == 0 ==> r == ""
    ensures r == "" <==> |samples| == 0 || Quiet(samples)
    ensures r != "" && Hashable(code) ==> r in PhrasesFor(code)
    ensures r != "" && !Hashable(code) ==> r == FallbackText(code)
  {
    if |samples| == 0 || Quiet(samples) then ""
    else if !Hashable(code) then FallbackText(code)
    else PhrasesFor(code)[pick % 3]
  }

  /** random.choice can yield any phrase of the list: each one has a draw that picks it. */
  lemma EveryPhraseReachable(samples: seq<real>, code: Json, k: nat)
    requires |samples| > 0 && !Quiet(samples) && Hashable(code) && k < 3
    ensures Transcribe(samples, code, k) == PhrasesFor(code)[k]
  {
    assert k % 3 == k;
  }

  /** A supported language with no demo phrases (Bodo, say) is answered in Hindi. */
  lemma MissingLanguageFallsBackToHindi(samples: seq<real>, pick: nat)
    requires |samples| > 0 && !Quiet(samples)
    ensures Transcribe(samples, JStr("brx"), pick) in FindPhrases(DemoSamples, "hi").value
  {
    var t := DemoSamples;
    assert forall i :: 0 <= i < |t| ==> t[i].0 != "brx";
  }

  /** The engine object. Its fields are what the health check reports. */
  class EngineModel {
    var model: Option<string>
    var device: Option<string>
    var isLoaded: bool

    /** `__init__` followed by `_initialize_model`, whose demo path always succeeds. */
    constructor ()
      ensures model == Some("demo_model") && device == Some("cpu") && isLoaded
    {
      device := Some("cpu");
      model := Some("demo_model");
      isLoaded := true;
    }
  }

  /**
   * The class attribute `_instance` of IndicConformerModel. `constructions`
   * counts how many engine objects were ever made.
   */
  class EngineRegistry {
    var instance: EngineModel?
    ghost var constructions: nat

    ghost predicate Valid()
      reads this
    {
      constructions == if instance == null then 0 else 1
    }

    constructor ()
      ensures Valid() && instance == null
    {
      instance := null;
      constructions := 0;
    }

    /**
     * get_instance: the first call builds the engine, every later call
     * returns that same object, so at most one engine is ever constructed.
     */
    method GetInstance() returns (m: EngineModel)
      requires Valid()
      modifies this
      ensures Valid() && instance == m && constructions <= 1
      ensures old(instance) != null ==> m == old(instance) && constructions == old(constructions)
      ensures old(instance) == null ==> fresh(m) && m.isLoaded && m.device == Some("cpu")
    {
      if instance == null {
        instance := new EngineModel();
        constructions := constructions + 1;
      }
      m := instance;
    }
  }
}

=== FILE: json.dfy ===
/**
 * JSON values as Python's json.loads hands them to the back end, with the
 * three Python behaviours the back end relies on: str() of a value (used in
 * error messages), truthiness (used by `if not x`) and hashability (used by
 * dictionary lookups).
 */
module JsonValues {
  import opened Wrappers

  /**
   * One JSON value. Floats carry their exact value and the text Python's
   * str() gives them; a `JFloat` is meaningful only when the two agree, and
   * nothing here checks that they do. Arrays and objects nested inside a message are never
   * inspected field by field, so they are kept as their str() text and
   * whether they are empty.
   */
  datatype Json =
    | JNull
    | JBool(b: bool)
    | JInt(i: int)
    | JFloat(value: real, text: string)
    | JStr(s: string)
    | JCompound(text: string, isEmpty: bool)

  /** A whole inbound text frame: not JSON at all, a JSON object, or any other JSON value. */
  datatype Frame =
    | Malformed
    | Document(fields: map<string, Json>)
    | NonObject(value: Json)

  /** Python's `d.get(key, default)`. */
  function Get(fields: map<string, Json>, key: string, default: Json): (v: Json)
    ensures key in fields ==> v == fields[key]
    ensures key !in fields ==> v == default
  {
    if key in fields then fields[key] else default
  }

  /** Python's truthiness: `if not x` takes the branch exactly when this is false. */
  predicate Truthy(v: Json): (b: bool)
    ensures !b <==> v in {JNull, JBool(false), JInt(0), JStr("")} || (v.JFloat? && v.value == 0.0) || (v.JCompound? && v.isEmpty)
  {
    match v
    case JNull => false
    case JBool(b) => b
    case JInt(i) => i != 0
    case JFloat(x, _) => x != 0.0
    case JStr(s) => s != ""
    case JCompound(_, empty) => !empty
  }

  /** Arrays and objects become lists and dicts, which cannot be dictionary keys. */
  predicate Hashable(v: Json): (b: bool)
    ensures b <==> v.JNull? || v.JBool? || v.JInt? || v.JFloat? || v.JStr?
  {
    !v.JCompound?
  }

  predicate IsDigit(c: char)
  {
    '0' <= c <= '9'
  }

  predicate AllDigits(s: string)
  {
    forall k :: 0 <= k < |s| ==> IsDigit(s[k])
  }

  function DigitChar(d: nat): (c: char)
    requires d < 10
    ensures IsDigit(c) && c as int - '0' as int == d
  {
    ['0', '1', '2', '3', '4', '5', '6', '7', '8', '9'][d]
  }

  /** The decimal digits of a natural number, most significant first, without leading zeros. */
  function Digits(n: nat): (s: string)
    ensures |s| >= 1 && AllDigits(s)
    ensures |s| > 1 ==> s[0] != '0'
  {
    if n < 10 then [DigitChar(n)] else Digits(n / 10) + [DigitChar(n % 10)]
  }

  /** The value of a string of decimal digits. */
  function DigitsValue(s: string): nat
    requires AllDigits(s)
  {
    if s == [] then 0 else DigitsValue(s[..|s| - 1]) * 10 + (s[|s| - 1] as int - '0' as int)
  }

  /** Python's str() of an int. */
  function Decimal(i: int): (s: string)
    ensures |s| >= 1
  {
    if i < 0 then "-" + Digits(-i) else Digits(i)
  }

  /**
   * Python's int() of a string that is already stripped: an optional sign
   * followed by one or more ASCII digits; anything else is a ValueError.
   */
  function ParseDecimal(s: string): (r: Option<int>)
    ensures r.Some? <==>
      && |s| >= 1
      && (IsDigit(s[0]) || ((s[0] == '-' || s[0] == '+') && |s| >= 2))
      && forall k :: 1 <= k < |s| ==> IsDigit(s[k])
    ensures r.Some? && s[0] == '-' ==> r.value <= 0
    ensures r.Some? && s[0] != '-' ==> r.value >= 0
  {
    if |s| >= 2 && (s[0] == '-' || s[0] == '+') && AllDigits(s[1..]) then
      var magnitude: int := DigitsValue(s[1..]);
      Some(if s[0] == '-' then -magnitude else magnitude)
    else if |s| >= 1 && AllDigits(s) then
      Some(DigitsValue(s))
    else
      None
  }

  /** Python's str() of a value, as an f-string or `str(e)` renders it. */
  function Show(v: Json): (r: string)
    ensures v.JNull? ==> r == "None"
    ensures v.JStr? ==> r == v.s
    ensures v.JInt? ==> ParseDecimal(r) == Some(v.i)
  {
    match v
    case JNull => "None"
    case JBool(b) => if b then "True" else "False"
    case JInt(i) => DecimalRoundTrip(i); Decimal(i)
    case JFloat(_, t) => t
    case JStr(s) => s
    case JCompound(t, _) => t
  }

  /** One character of a str's repr() between the quotes `quote`. */
  function EscapeChar(c: char, quote: char): string
  {
    if c == '\\' then "\\\\"
    else if c == quote then ['\\', quote]
    else if c == '\n' then "\\n"
    else if c == '\r' then "\\r"
    else if c == '\t' then "\\t"
    else [c]
  }

  function Escape(s: string, quote: char): string
  {
    if s == [] then [] else EscapeChar(s[0], quote) + Escape(s[1..], quote)
  }

  /**
   * Python's repr() of a value, as `%r` renders it: a string is quoted, in
   * double quotes only when it holds a single quote and no double quote;
   * every other value prints as str() does.
   */
  function Repr(v: Json): (r: string)
    ensures !v.JStr? ==> r == Show(v)
    ensures v.JStr? ==> |r| >= 2 && r[0] == r[|r| - 1] && (r[0] == '\'' || r[0] == '"')
    ensures v.JStr? ==> (r[0] == '"' <==> '\'' in v.s && '"' !in v.s)
  {
    match v
    case JStr(s) =>
      var quote := if '\'' in s && '"' !in s then '"' else '\'';
      [quote] + Escape(s, quote) + [quote]
    case _ => Show(v)
  }

  lemma {:induction false} DigitsValueOfDigits(n: nat)
    ensures DigitsValue(Digits(n)) == n
  {
    if n >= 10 {
      var s := Digits(n);
      assert s[..|s| - 1] == Digits(n / 10);
      DigitsValueOfDigits(n / 10);
    }
  }

  /** Reading back the decimal text of an integer gives the integer. */
  lemma DecimalRoundTrip(i: int)
    ensures ParseDecimal(Decimal(i)) == Some(i)
  {
    var s := Decimal(i);
    if i < 0 {
      var d := Digits(-i);
      assert s == "-" + d;
      assert s[0] == '-' && s[1..] == d;
      DigitsValueOfDigits(-i);
    } else {
      assert s == Digits(i);
      assert IsDigit(s[0]);
      DigitsValueOfDigits(i);
    }
  }

  /** Distinct integers have distinct decimal texts. */
  lemma DecimalInjective(i: int, j: int)
    requires Decimal(i) == Decimal(j)
    ensures i == j
  {
    DecimalRoundTrip(i);
    DecimalRoundTrip(j);
  }
}

=== FILE: languages.dfy ===
/**
 * The back end's table of supported language codes and display names
 * (LANGUAGE_MAPPING) and the languages endpoint built from it.
 */
module Languages {
  import opened Wrappers

  /** One table entry; also the {code, name} item the languages endpoint returns. */
  datatype Language = Language(code: string, name: string)

  /** LANGUAGE_MAPPING, in the order its literal lists the entries. */
  const Table: seq<Language> := [
    Language("as", "Assamese"),
    Language("bn", "Bengali"),
    Language("brx", "Bodo"),
    Language("doi", "Dogri"),
    Language("gu", "Gujarati"),
    Language("hi", "Hindi"),
    Language("kn", "Kannada"),
    Language("kok", "Konkani"),
    Language("ks", "Kashmiri"),
    Language("mai", "Maithili"),
    Language("ml", "Malayalam"),
    Language("mni", "Manipuri"),
    Language("mr", "Marathi"),
    Language("ne", "Nepali"),
    Language("or", "Odia"),
    Language("pa", "Punjabi"),
    Language("sa", "Sanskrit"),
    Language("sat", "Santali"),
    Language("sd", "Sindhi"),
    Language("ta", "Tamil"),
    Language("te", "Telugu"),
    Language("ur", "Urdu")
  ]

  /** No code appears twice, so the table is a dictionary. */
  predicate DistinctCodes(t: seq<Language>)
  {
    forall i, j :: 0 <= i < j < |t| ==> t[i].code != t[j].code
  }

  /** Dictionary lookup in a table: the name of the first entry with that code. */
  function Find(t: seq<Language>, code: string): (r: Option<string>)
    ensures r.None? <==> forall i :: 0 <= i < |t| ==> t[i].code != code
    ensures r.Some? ==> exists i :: 0 <= i < |t| && t[i] == Language(code, r.value)
  {
    if t == [] then None
    else if t[0].code == code then Some(t[0].name)
    else
      var r := Find(t[1..], code);
      assert forall i :: 1 <= i < |t| ==> t[i] == t[1..][i - 1];
      r
  }

  /** `LANGUAGE_MAPPING.get(code)`. */
  function Lookup(code: string): (r: Option<string>)
    ensures r.None? <==> forall i :: 0 <= i < |Table| ==> Table[i].code != code
    ensures r.Some? ==> exists i :: 0 <= i < |Table| && Table[i] == Language(code, r.value)
  {
    Find(Table, code)
  }

  /** `code in LANGUAGE_MAPPING`. */
  predicate IsSupported(code: string): (b: bool)
    ensures b <==> exists i :: 0 <= i < |Table| && Table[i].code == code
  {
    Lookup(code).Some?
  }

  /** `LANGUAGE_MAPPING.get(code, 'Unknown')`. */
  function NameOrUnknown(code: string): (name: string)
    ensures IsSupported(code) ==> Some(name) == Lookup(code)
    ensures !IsSupported(code) ==> name == "Unknown"
  {
    match Lookup(code)
    case Some(n) => n
    case None => "Unknown"
  }

  /**
   * get_supported_languages: every table entry as {code, name}, in table
   * order; each item's name is the table's name for its code, and every
   * supported code is listed.
   */
  function SupportedLanguages(): (r: seq<Language>)
    ensures r == Table
    ensures |r| == 22
    ensures forall i :: 0 <= i < |r| ==> Lookup(r[i].code) == Some(r[i].name)
    ensures forall code :: IsSupported(code) ==> exists i :: 0 <= i < |r| && r[i].code == code
    ensures DistinctCodes(r)
  {
    var t := Table;
    TableIsDictionary();
    var r := seq(|t|, i requires 0 <= i < |t| => Language(t[i].code, t[i].name));
    assert forall i :: 0 <= i < |r| ==> r[i] == t[i];
    r
  }

  /** In a table with distinct codes, lookup finds exactly the entry's name. */
  lemma {:induction false} FindEntry(t: seq<Language>, i: nat)
    requires DistinctCodes(t) && i < |t|
    ensures Find(t, t[i].code) == Some(t[i].name)
  {
    if i > 0 {
      assert t[1..][i - 1] == t[i];
      FindEntry(t[1..], i - 1);
    }
  }

  /** Strict lexicographic order on code points. */
  predicate LexLess(a: string, b: string)
  {
    if a == [] then b != []
    else if b == [] then false
    else a[0] < b[0] || (a[0] == b[0] && LexLess(a[1..], b[1..]))
  }

  lemma {:induction false} LexLessIrreflexive(a: string)
    ensures !LexLess(a, a)
  {
    if a != [] {
      LexLessIrreflexive(a[1..]);
    }
  }

  lemma {:induction false} LexLessTransitive(a: string, b: string, c: string)
    requires LexLess(a, b) && LexLess(b, c)
    ensures LexLess(a, c)
  {
    if a != [] && b != [] && c != [] && a[0] == b[0] == c[0] {
      LexLessTransitive(a[1..], b[1..], c[1..]);
    }
  }

  /** Each code sorts strictly before the next one. */
  predicate AscendingCodes(t: seq<Language>)
  {
    forall i :: 0 <= i < |t| - 1 ==> LexLess(t[i].code, t[i + 1].code)
  }

  lemma {:induction false} AscendingFar(t: seq<Language>, i: nat, j: nat)
    requires AscendingCodes(t) && i < j < |t|
    ensures LexLess(t[i].code, t[j].code)
  {
    if j > i + 1 {
      AscendingFar(t, i, j - 1);
      LexLessTransitive(t[i].code, t[j - 1].code, t[j].code);
    }
  }

  lemma AscendingIsDistinct(t: seq<Language>)
    requires AscendingCodes(t)
    ensures DistinctCodes(t)
  {
    forall i, j | 0 <= i < j < |t| ensures t[i].code != t[j].code {
      AscendingFar(t, i, j);
      LexLessIrreflexive(t[i].code);
    }
  }

  /** LANGUAGE_MAPPING has 22 distinct codes, and looking up any of them finds its own name. */
  lemma TableIsDictionary()
    ensures |Table| == 22
    ensures DistinctCodes(Table)
    ensures forall i :: 0 <= i < |Table| ==> Lookup(Table[i].code) == Some(Table[i].name)
  {
    TableAscending();
    AscendingIsDistinct(Table);
    forall i | 0 <= i < |Table| ensures Lookup(Table[i].code) == Some(Table[i].name) {
      FindEntry(Table, i);
    }
  }

  lemma TableAscending()
    ensures AscendingCodes(Table)
  {
    var t := Table;
    assert LexLess(t[0].code, t[1].code);
    assert LexLess(t[1].code, t[2].code);
    assert LexLess(t[2].code, t[3].code);
    assert LexLess(t[3].code, t[4].code);
    assert LexLess(t[4].code, t[5].code);
    assert LexLess(t[5].code, t[6].code);
    assert LexLess(t[6].code, t[7].code);
    assert LexLess(t[7].code, t[8].code);
    assert LexLess(t[8].code, t[9].code);
    assert LexLess(t[9].code, t[10].code);
    assert LexLess(t[10].code, t[11].code);
    assert LexLess(t[11].code, t[12].code);
    assert LexLess(t[12].code, t[13].code);
    assert LexLess(t[13].code, t[14].code);
    assert LexLess(t[14].code, t[15].code);
    assert LexLess(t[15].code, t[16].code);
    assert LexLess(t[16].code, t[17].code);
    assert LexLess(t[17].code, t[18].code);
    assert LexLess(t[18].code, t[19].code);
    assert LexLess(t[19].code, t[20].code);
    assert LexLess(t[20].code, t[21].code);
  }

  /** 'hi', the default of several front ends, is supported and named Hindi. */
  lemma DefaultLanguageSupported()
    ensures Lookup("hi") == Some("Hindi")
  {
    TableIsDictionary();
    var t := Table;
    assert t[5] == Language("hi", "Hindi");
  }
}

=== FILE: serializers.dfy ===
/**
 * The request and response shapes of the HTTP front end: field-by-field
 * validation of an audio-chunk request as the REST framework's CharField
 * and IntegerField perform it, and the fields the session, result and
 * language serializers expose.
 */
module Serializers {
  import opened Wrappers
  import opened JsonValues
  import opened Text
  import Store
  import Languages

  const SessionIdMaxLength: nat := 100
  const LanguageCodeMaxLength: nat := 10
  const LanguageNameMaxLength: nat := 50
  const DefaultSampleRate: int := 16000
  /** IntegerField refuses longer strings before parsing them. */
  const IntegerTextMaxLength: nat := 1000

  const RequiredMessage := "This field is required."
  const NullMessage := "This field may not be null."
  const BlankMessage := "This field may not be blank."
  const NotStringMessage := "Not a valid string."
  const NullCharacterMessage := "Null characters are not allowed."
  const InvalidIntegerMessage := "A valid integer is required."
  const IntegerTextTooLongMessage := "String value too large."

  function MaxLengthMessage(n: nat): string
  {
    "Ensure this field has no more than " + Decimal(n) + " characters."
  }

  /** A request field: absent, or present with a JSON value. */
  function Field(data: map<string, Json>, key: string): (v: Option<Json>)
    ensures v.Some? <==> key in data
    ensures v.Some? ==> v.value == data[key]
  {
    if key in data then Some(data[key]) else None
  }

  /**
   * CharField(max_length=...), required, blank not allowed, whitespace
   * trimmed. Strings and numbers are accepted as their str(); booleans,
   * arrays and objects are not strings.
   */
  function CharField(v: Option<Json>, maxLength: Option<nat>): (r: Result<string, string>)
    ensures r.Ok? ==> v.Some? && (v.value.JStr? || v.value.JInt? || v.value.JFloat?)
    ensures r.Ok? ==> r.value == Strip(Show(v.value)) && r.value != "" && Strip(r.value) == r.value
    ensures r.Ok? ==> '\0' !in r.value
    ensures r.Ok? && maxLength.Some? ==> |r.value| <= maxLength.value
    ensures v.None? ==> r == Err(RequiredMessage)
    ensures v == Some(JNull) ==> r == Err(NullMessage)
    ensures v.Some? && (v.value.JBool? || v.value.JCompound?) ==> r == Err(NotStringMessage)
  {
    match v
    case None => Err(RequiredMessage)
    case Some(j) =>
      if j.JNull? then Err(NullMessage)
      // str() of a bool, list or dict is never blank, so these reach the type check
      else if j.JBool? || j.JCompound? then Err(NotStringMessage)
      else if IsBlank(Show(j)) then Err(BlankMessage)
      else if !(j.JStr? || j.JInt? || j.JFloat?) then Err(NotStringMessage)
      else
        var value := Strip(Show(j));
        StripIdempotent(Show(j));
        if maxLength.Some? && |value| > maxLength.value then Err(MaxLengthMessage(maxLength.value))
        else if '\0' in value then Err(NullCharacterMessage)
        else Ok(value)
  }

  /** The number of trailing '0' characters. */
  function TrailingZeros(s: string): (n: nat)
    ensures n <= |s|
    ensures forall k :: |s| - n <= k < |s| ==> s[k] == '0'
  {
    if s == [] || s[|s| - 1] != '0' then 0 else 1 + TrailingZeros(s[..|s| - 1])
  }

  /**
   * IntegerField's first step, `re.sub(r'\.0*\s*$', '', text)`: a final
   * '.' followed only by zeros and then whitespace is cut off.
   */
  function DropZeroFraction(t: string): (r: string)
    ensures r == t || (|r| < |t| && t[|r|] == '.' && r == t[..|r|])
  {
    var end := |t| - TrailingSpaces(t);
    var dot := end - TrailingZeros(t[..end]);
    if dot > 0 && t[dot - 1] == '.' then t[..dot - 1] else t
  }

  /** `int(text)` after DropZeroFraction; surrounding whitespace is allowed, as int() allows it. */
  function IntegerText(t: string): Result<int, string>
  {
    match ParseDecimal(Strip(DropZeroFraction(t)))
    case Some(i) => Ok(i)
    case None => Err(InvalidIntegerMessage)
  }

  /** IntegerField, with an optional default used when the field is absent. */
  function IntegerField(v: Option<Json>, default: Option<int>): (r: Result<int, string>)
    ensures v.None? ==> r == (if default.Some? then Ok(default.value) else Err(RequiredMessage))
    ensures v == Some(JNull) ==> r == Err(NullMessage)
    ensures r.Ok? && v.Some? ==> v.value.JInt? || v.value.JFloat? || v.value.JStr?
    ensures v.Some? && (v.value.JBool? || v.value.JCompound?) ==> r == Err(InvalidIntegerMessage)
  {
    match v
    case None => if default.Some? then Ok(default.value) else Err(RequiredMessage)
    case Some(j) =>
      if j.JNull? then Err(NullMessage)
      else if j.JStr? && |j.s| > IntegerTextMaxLength then Err(IntegerTextTooLongMessage)
      // str() of a bool, list or dict never reads as a decimal integer
      else if j.JBool? || j.JCompound? then Err(InvalidIntegerMessage)
      else IntegerText(Show(j))
  }

  /** The decimal text of an integer is digits after an optional leading minus sign. */
  lemma DecimalCharacters(i: int)
    ensures forall k :: 0 <= k < |Decimal(i)| ==> IsDigit(Decimal(i)[k]) || (k == 0 && Decimal(i)[k] == '-')
  {
  }

  /** A JSON integer is accepted as itself: its decimal text parses back to it. */
  lemma IntegerFieldAcceptsIntegers(i: int, default: Option<int>)
    ensures IntegerField(Some(JInt(i)), default) == Ok(i)
  {
    var t := Decimal(i);
    DecimalCharacters(i);
    DecimalRoundTrip(i);
    assert !IsSpace(t[|t| - 1]);
    assert TrailingSpaces(t) == 0;
    assert t[..|t|] == t;
    assert DropZeroFraction(t) == t;
    assert !IsSpace(t[0]);
    assert Strip(t) == t;
  }

  /** A validated AudioChunkSerializer payload. */
  datatype ChunkRequest = ChunkRequest(
    audioData: string,
    sessionId: string,
    languageCode: string,
    chunkNumber: int,
    sampleRate: int)

  /** Adds a field's error message to the error dictionary when the field failed. */
  function WithError<T>(errors: map<string, string>, name: string, r: Result<T, string>): (e: map<string, string>)
    ensures r.Ok? ==> e == errors
    ensures r.Err? ==> e == errors[name := r.error]
    ensures e.Keys == errors.Keys + (if r.Err? then {name} else {})
  {
    if r.Err? then errors[name := r.error] else errors
  }

  /**
   * AudioChunkSerializer.is_valid(): every field is checked and every
   * failing field is reported with its message; the request is accepted
   * only when all five fields are.
   */
  function ValidateChunk(data: map<string, Json>): (r: Result<ChunkRequest, map<string, string>>)
    ensures r.Ok? <==>
      && CharField(Field(data, "audio_data"), None).Ok?
      && CharField(Field(data, "session_id"), Some(SessionIdMaxLength)).Ok?
      && CharField(Field(data, "language_code"), Some(LanguageCodeMaxLength)).Ok?
      && IntegerField(Field(data, "chunk_number"), None).Ok?
      && IntegerField(Field(data, "sample_rate"), Some(DefaultSampleRate)).Ok?
    ensures r.Ok? ==> 1 <= |r.value.sessionId| <= SessionIdMaxLength
    ensures r.Ok? ==> 1 <= |r.value.languageCode| <= LanguageCodeMaxLength
    ensures r.Ok? ==> r.value.audioData != ""
    ensures r.Ok? && "sample_rate" !in data ==> r.value.sampleRate == DefaultSampleRate
    ensures r.Err? ==> ("audio_data" in r.error <==> CharField(Field(data, "audio_data"), None).Err?)
    ensures r.Err? ==> ("session_id" in r.error <==> CharField(Field(data, "session_id"), Some(SessionIdMaxLength)).Err?)
    ensures r.Err? ==> ("language_code" in r.error <==> CharField(Field(data, "language_code"), Some(LanguageCodeMaxLength)).Err?)
    ensures r.Err? ==> ("chunk_number" in r.error <==> IntegerField(Field(data, "chunk_number"), None).Err?)
    ensures r.Err? ==> ("sample_rate" in r.error <==> IntegerField(Field(data, "sample_rate"), Some(DefaultSampleRate)).Err?)
    ensures r.Err? ==> r.error.Keys <= {"audio_data", "session_id", "language_code", "chunk_number", "sample_rate"}
  {
    Assemble(
      CharField(Field(data, "audio_data"), None),
      CharField(Field(data, "session_id"), Some(SessionIdMaxLength)),
      CharField(Field(data, "language_code"), Some(LanguageCodeMaxLength)),
      IntegerField(Field(data, "chunk_number"), None),
      IntegerField(Field(data, "sample_rate"), Some(DefaultSampleRate)))
  }

  /** Combines the five field outcomes into the payload or the error dictionary. */
  function Assemble(
    audio: Result<string, string>, session: Result<string, string>, language: Result<string, string>,
    chunk: Result<int, string>, rate: Result<int, string>): (r: Result<ChunkRequest, map<string, string>>)
    ensures r.Ok? <==> audio.Ok? && session.Ok? && language.Ok? && chunk.Ok? && rate.Ok?
    ensures r.Ok? ==> r.value == ChunkRequest(audio.value, session.value, language.value, chunk.value, rate.value)
    ensures r.Err? ==> ("audio_data" in r.error <==> audio.Err?)
    ensures r.Err? ==> ("session_id" in r.error <==> session.Err?)
    ensures r.Err? ==> ("language_code" in r.error <==> language.Err?)
    ensures r.Err? ==> ("chunk_number" in r.error <==> chunk.Err?)
    ensures r.Err? ==> ("sample_rate" in r.error <==> rate.Err?)
    ensures r.Err? ==> r.error.Keys <= {"audio_data", "session_id", "language_code", "chunk_number", "sample_rate"}
  {
    var errors :=
      WithError(WithError(WithError(WithError(WithError(map[], "audio_data", audio),
        "session_id", session), "language_code", language), "chunk_number", chunk), "sample_rate", rate);
    if audio.Ok? && session.Ok? && language.Ok? && chunk.Ok? && rate.Ok? then
      Ok(ChunkRequest(audio.value, session.value, language.value, chunk.value, rate.value))
    else
      Err(errors)
  }

  /** TranscriptionSessionSerializer's fields. */
  datatype SessionView = SessionView(sessionId: string, languageCode: string, createdAt: nat, isActive: bool)

  function SerializeSession(id: string, s: Store.Session): (v: SessionView)
    ensures v.sessionId == id && v.languageCode == s.languageCode
    ensures v.createdAt == s.createdAt && v.isActive == s.isActive
  {
    SessionView(id, s.languageCode, s.createdAt, s.isActive)
  }

  /** TranscriptionResultSerializer's fields. */
  datatype ResultView = ResultView(chunkNumber: int, text: string, confidence: Option<real>, timestamp: nat)

  function SerializeResult(row: Store.ResultRow): (v: ResultView)
    ensures v.chunkNumber == row.chunkNumber && v.text == row.text
    ensures v.confidence == row.confidence && v.timestamp == row.timestamp
  {
    ResultView(row.chunkNumber, row.text, row.confidence, row.timestamp)
  }

  /** updated_at is not exposed: sessions that differ only there serialize alike. */
  lemma SessionViewHidesUpdatedAt(id: string, s: Store.Session, updatedAt: nat)
    ensures SerializeSession(id, s.(updatedAt := updatedAt)) == SerializeSession(id, s)
  {
  }

  /** The owning session is not exposed: rows that differ only there serialize alike. */
  lemma ResultViewHidesSession(row: Store.ResultRow, other: string)
    ensures SerializeResult(row.(sessionId := other)) == SerializeResult(row)
  {
  }

  /** Every language table entry fits LanguageSerializer's field lengths. */
  lemma LanguagesFitLanguageSerializer()
    ensures forall i :: 0 <= i < |Languages.Table| ==>
      |Languages.Table[i].code| <= LanguageCodeMaxLength && |Languages.Table[i].name| <= LanguageNameMaxLength
  {
  }

  /** A JSON-integer sample_rate is taken as given; a missing one is 16000. */
  lemma SampleRateDefault(data: map<string, Json>)
    ensures "sample_rate" !in data ==> IntegerField(Field(data, "sample_rate"), Some(DefaultSampleRate)) == Ok(16000)
    ensures "sample_rate" in data && data["sample_rate"].JInt? ==>
      IntegerField(Field(data, "sample_rate"), Some(DefaultSampleRate)) == Ok(data["sample_rate"].i)
  {
    if "sample_rate" in data && data["sample_rate"].JInt? {
      IntegerFieldAcceptsIntegers(data["sample_rate"].i, Some(DefaultSampleRate));
    }
  }
}

=== FILE: store.dfy ===
/**
 * The back end's database: the table of transcription sessions keyed by
 * their unique session id, and the table of per-chunk results, whose rows
 * are only ever added (or removed with their session).
 */
module Store {
  import opened Wrappers

  /**
   * A TranscriptionSession row, keyed by its session_id. `createdAt` and
   * `updatedAt` are ticks of the store's clock (auto_now_add and auto_now).
   */
  datatype Session = Session(languageCode: string, isActive: bool, createdAt: nat, updatedAt: nat)

  /** A TranscriptionResult row; `confidence` is the nullable confidence_score. */
  datatype ResultRow = ResultRow(sessionId: string, chunkNumber: int, text: string, confidence: Option<real>, timestamp: nat)

  /** Rows in ascending chunk_number, repeats allowed. */
  predicate SortedByChunk(rows: seq<ResultRow>)
  {
    forall i, j :: 0 <= i < j < |rows| ==> rows[i].chunkNumber <= rows[j].chunkNumber
  }

  /** The rows of one session, in the order they were added. */
  function RowsOf(rows: seq<ResultRow>, id: string): (r: seq<ResultRow>)
    ensures forall x :: x in r <==> x in rows && x.sessionId == id
    ensures |r| <= |rows|
  {
    if rows == [] then []
    else
      var last := rows[|rows| - 1];
      RowsOf(rows[..|rows| - 1], id) + (if last.sessionId == id then [last] else [])
  }

  /** The rows that do not belong to one session, in the order they were added. */
  function RowsExcept(rows: seq<ResultRow>, id: string): (r: seq<ResultRow>)
    ensures forall x :: x in r <==> x in rows && x.sessionId != id
  {
    if rows == [] then []
    else
      var last := rows[|rows| - 1];
      RowsExcept(rows[..|rows| - 1], id) + (if last.sessionId != id then [last] else [])
  }

  /** Puts a row into sorted rows, after every row whose chunk number is not larger. */
  function InsertByChunk(x: ResultRow, rows: seq<ResultRow>): (r: seq<ResultRow>)
    ensures multiset(r) == multiset(rows) + multiset{x}
    ensures |r| == |rows| + 1
  {
    if rows == [] then [x]
    else if x.chunkNumber < rows[0].chunkNumber then [x] + rows
    else
      var tail := InsertByChunk(x, rows[1..]);
      assert rows == [rows[0]] + rows[1..];
      [rows[0]] + tail
  }

  /** A bound below the inserted row and all the rows is a bound below the result. */
  lemma {:induction false} InsertKeepsLowerBound(x: ResultRow, rows: seq<ResultRow>, bound: int)
    requires bound <= x.chunkNumber
    requires forall k :: 0 <= k < |rows| ==> bound <= rows[k].chunkNumber
    ensures forall k :: 0 <= k < |rows| + 1 ==> bound <= InsertByChunk(x, rows)[k].chunkNumber
  {
    if rows != [] && x.chunkNumber >= rows[0].chunkNumber {
      InsertKeepsLowerBound(x, rows[1..], bound);
    }
  }

  /** Inserting into sorted rows keeps them sorted. */
  lemma {:induction false} InsertKeepsSorted(x: ResultRow, rows: seq<ResultRow>)
    requires SortedByChunk(rows)
    ensures SortedByChunk(InsertByChunk(x, rows))
  {
    if rows != [] && x.chunkNumber >= rows[0].chunkNumber {
      var tail := InsertByChunk(x, rows[1..]);
      InsertKeepsSorted(x, rows[1..]);
      InsertKeepsLowerBound(x, rows[1..], rows[0].chunkNumber);
      assert InsertByChunk(x, rows) == [rows[0]] + tail;
    }
  }

  /**
   * ORDER BY chunk_number: the same rows, ascending by chunk number; rows
   * with equal chunk numbers keep the order in which they were added.
   */
  function SortByChunk(rows: seq<ResultRow>): (r: seq<ResultRow>)
    ensures SortedByChunk(r)
    ensures multiset(r) == multiset(rows)
  {
    if rows == [] then []
    else
      assert rows == rows[..|rows| - 1] + [rows[|rows| - 1]];
      var sorted := SortByChunk(rows[..|rows| - 1]);
      InsertKeepsSorted(rows[|rows| - 1], sorted);
      InsertByChunk(rows[|rows| - 1], sorted)
  }

  /** Adding a row to the table adds it to its own session's rows and to no other's. */
  lemma RowsOfAppend(rows: seq<ResultRow>, x: ResultRow, id: string)
    ensures RowsOf(rows + [x], id) == RowsOf(rows, id) + (if x.sessionId == id then [x] else [])
  {
    assert (rows + [x])[..|rows + [x]| - 1] == rows;
  }

  /** Removing one session's rows leaves every other session's rows exactly as they were. */
  lemma {:induction false} CascadeKeepsOthers(rows: seq<ResultRow>, gone: string, id: string)
    requires id != gone
    ensures RowsOf(RowsExcept(rows, gone), id) == RowsOf(rows, id)
  {
    if rows != [] {
      var init := rows[..|rows| - 1];
      var last := rows[|rows| - 1];
      CascadeKeepsOthers(init, gone, id);
      assert RowsOf(rows, id) == RowsOf(init, id) + (if last.sessionId == id then [last] else []);
      if last.sessionId != gone {
        assert RowsExcept(rows, gone) == RowsExcept(init, gone) + [last];
        RowsOfAppend(RowsExcept(init, gone), last, id);
      } else {
        assert RowsExcept(rows, gone) == RowsExcept(init, gone);
      }
    }
  }

  /** SQLite stores an INTEGER in 64 bits; binding a wider Python int raises OverflowError. */
  const IntegerMin: int := -0x8000_0000_0000_0000
  const IntegerMax: int := 0x7FFF_FFFF_FFFF_FFFF
  const IntegerOverflowError := "Python int too large to convert to SQLite INTEGER"

  predicate FitsInteger(n: int)
  {
    IntegerMin <= n <= IntegerMax
  }

  /** The database: both tables and the clock that stamps every write. */
  class Database {
    var sessions: map<string, Session>
    var results: seq<ResultRow>
    var clock: nat

    /**
     * Every result points at a stored session (the foreign key), and every
     * timestamp was taken before the clock's current tick, and every
     * stored chunk number fits the 64-bit column.
     */
    ghost predicate Valid()
      reads this
    {
      && (forall id :: id in sessions ==> sessions[id].createdAt <= sessions[id].updatedAt < clock)
      && (forall i :: 0 <= i < |results| ==> results[i].sessionId in sessions && results[i].timestamp < clock)
      && (forall i :: 0 <= i < |results| ==> FitsInteger(results[i].chunkNumber))
    }

    constructor ()
      ensures Valid() && sessions == map[] && results == [] && clock == 0
    {
      sessions := map[];
      results := [];
      clock := 0;
    }

    /**
     * The results of one session as the ORM lists them (Meta ordering and
     * order_by('chunk_number')): exactly that session's rows, ascending.
     */
    function ResultsOf(id: string): (rs: seq<ResultRow>)
      reads this
      ensures SortedByChunk(rs)
      ensures multiset(rs) == multiset(RowsOf(results, id))
      ensures forall x :: x in rs <==> x in results && x.sessionId == id
    {
      var rs := SortByChunk(RowsOf(results, id));
      assert forall x :: x in rs <==> x in multiset(RowsOf(results, id));
      rs
    }

    /**
     * `get_or_create(session_id=id, defaults={language_code, is_active: True})`:
     * an existing row is returned untouched (stored language and is_active
     * kept); otherwise a new active row with this language is inserted.
     */
    method GetOrCreate(id: string, languageCode: string) returns (created: bool)
      requires Valid()
      modifies this
      ensures Valid() && results == old(results)
      ensures created <==> id !in old(sessions)
      ensures created ==> (sessions == old(sessions)[id := Session(languageCode, true, old(clock), old(clock))]
                           && clock == old(clock) + 1)
      ensures !created ==> sessions == old(sessions) && clock == old(clock)
    {
      created := id !in sessions;
      if created {
        sessions := sessions[id := Session(languageCode, true, clock, clock)];
        clock := clock + 1;
      }
    }

    /**
     * `objects.create(session_id=id, ...)`: inserts an active row, and fails
     * on the unique constraint when the id is already stored.
     */
    method Create(id: string, languageCode: string) returns (ok: bool)
      requires Valid()
      modifies this
      ensures Valid() && results == old(results)
      ensures ok <==> id !in old(sessions)
      ensures ok ==> (sessions == old(sessions)[id := Session(languageCode, true, old(clock), old(clock))]
                      && clock == old(clock) + 1)
      ensures !ok ==> sessions == old(sessions) && clock == old(clock)
    {
      ok := id !in sessions;
      if ok {
        sessions := sessions[id := Session(languageCode, true, clock, clock)];
        clock := clock + 1;
      }
    }

    /**
     * `get(session_id=id)`, then `is_active = False; save()`: reports
     * whether the row exists; if so it becomes inactive and its updated_at
     * is refreshed, nothing else changes.
     */
    method Deactivate(id: string) returns (found: bool)
      requires Valid()
      modifies this
      ensures Valid() && results == old(results)
      ensures found <==> id in old(sessions)
      ensures found ==> (sessions == old(sessions)[id := old(sessions)[id].(isActive := false, updatedAt := old(clock))]
                         && clock == old(clock) + 1)
      ensures !found ==> sessions == old(sessions) && clock == old(clock)
    {
      found := id in sessions;
      if found {
        sessions := sessions[id := sessions[id].(isActive := false, updatedAt := clock)];
        clock := clock + 1;
      }
    }

    /**
     * `TranscriptionResult.objects.create(...)`: appends one row and changes
     * no existing row; a chunk number wider than 64 bits is refused by the
     * driver and nothing is written.
     */
    method AppendResult(id: string, chunkNumber: int, text: string, confidence: Option<real>) returns (ok: bool)
      requires Valid() && id in sessions
      modifies this
      ensures Valid() && sessions == old(sessions)
      ensures ok <==> FitsInteger(chunkNumber)
      ensures ok ==> results == old(results) + [ResultRow(id, chunkNumber, text, confidence, old(clock))]
                     && clock == old(clock) + 1
      ensures !ok ==> results == old(results) && clock == old(clock)
    {
      ok := FitsInteger(chunkNumber);
      if ok {
        results := results + [ResultRow(id, chunkNumber, text, confidence, clock)];
        clock := clock + 1;
      }
    }

    /** Deleting a session deletes its results too (on_delete=CASCADE). */
    method Delete(id: string) returns (found: bool)
      requires Valid()
      modifies this
      ensures Valid() && clock == old(clock)
      ensures found <==> id in old(sessions)
      ensures sessions == old(sessions) - {id}
      ensures results == RowsExcept(old(results), id)
    {
      found := id in sessions;
      sessions := sessions - {id};
      results := RowsExcept(results, id);
    }
  }

  /** After a cascade delete the session has no rows left. */
  lemma {:induction false} CascadeLeavesNothing(rows: seq<ResultRow>, gone: string)
    ensures RowsOf(RowsExcept(rows, gone), gone) == []
  {
    if rows != [] {
      var init := rows[..|rows| - 1];
      var last := rows[|rows| - 1];
      CascadeLeavesNothing(init, gone);
      if last.sessionId != gone {
        assert RowsExcept(rows, gone) == RowsExcept(init, gone) + [last];
        RowsOfAppend(RowsExcept(init, gone), last, gone);
      } else {
        assert RowsExcept(rows, gone) == RowsExcept(init, gone);
      }
    }
  }
}

=== FILE: text.dfy ===
/**
 * Python's str.strip() with no argument, over the characters Python's
 * str.isspace() accepts.
 */
module Text {

  /** The whitespace characters of Python 3's str.isspace(). */
  predicate IsSpace(c: char)
  {
    || '\t' <= c <= '\r'
    || '\U{1C}' <= c <= ' '
    || c == '\U{85}' || c == '\U{A0}' || c == '\U{1680}'
    || '\U{2000}' <= c <= '\U{200A}'
    || c == '\U{2028}' || c == '\U{2029}' || c == '\U{202F}' || c == '\U{205F}' || c == '\U{3000}'
  }

  /** True when every character is whitespace (the empty string included). */
  predicate IsBlank(s: string)
  {
    forall k :: 0 <= k < |s| ==> IsSpace(s[k])
  }

  /** The number of leading whitespace characters. */
  function LeadingSpaces(s: string): (n: nat)
    ensures n <= |s|
    ensures forall k :: 0 <= k < n ==> IsSpace(s[k])
    ensures n < |s| ==> !IsSpace(s[n])
  {
    if s == [] || !IsSpace(s[0]) then 0 else 1 + LeadingSpaces(s[1..])
  }

  /** The number of trailing whitespace characters. */
  function TrailingSpaces(s: string): (n: nat)
    ensures n <= |s|
    ensures forall k :: |s| - n <= k < |s| ==> IsSpace(s[k])
    ensures n < |s| ==> !IsSpace(s[|s| - 1 - n])
  {
    if s == [] || !IsSpace(s[|s| - 1]) then 0 else 1 + TrailingSpaces(s[..|s| - 1])
  }

  /**
   * Python's s.strip(): the longest infix that neither starts nor ends with
   * whitespace, obtained by dropping whitespace from both ends only.
   */
  function Strip(s: string): (r: string)
    ensures r == "" <==> IsBlank(s)
    ensures r != "" ==> !IsSpace(r[0]) && !IsSpace(r[|r| - 1])
    ensures r != "" ==> LeadingSpaces(s) + |r| + TrailingSpaces(s) == |s| && r == s[LeadingSpaces(s)..|s| - TrailingSpaces(s)]
  {
    var lead := LeadingSpaces(s);
    if lead == |s| then
      ""
    else
      var trail := TrailingSpaces(s);
      var r := s[lead..|s| - trail];
      assert !IsSpace(r[0]);
      r
  }

  /** Stripping twice is stripping once. */
  lemma StripIdempotent(s: string)
    ensures Strip(Strip(s)) == Strip(s)
  {
    var r := Strip(s);
    if r != "" {
      assert LeadingSpaces(r) == 0;
      assert TrailingSpaces(r) == 0;
    }
  }

  /** A string with no whitespace at either end is its own strip. */
  lemma StripKeepsTrimmed(s: string)
    requires s != "" && !IsSpace(s[0]) && !IsSpace(s[|s| - 1])
    ensures Strip(s) == s
  {
    assert LeadingSpaces(s) == 0;
    assert TrailingSpaces(s) == 0;
  }

  /** Stripping removes only whitespace: what it drops on either side is blank. */
  lemma StripDropsOnlySpace(s: string)
    ensures IsBlank(s[..LeadingSpaces(s)])
    ensures IsBlank(s[|s| - TrailingSpaces(s)..])
  {
    LeadingPartIsBlank(s, LeadingSpaces(s));
    TrailingPartIsBlank(s, TrailingSpaces(s));
  }

  lemma LeadingPartIsBlank(s: string, n: nat)
    requires n <= |s| && forall k :: 0 <= k < n ==> IsSpace(s[k])
    ensures IsBlank(s[..n])
  {
    var prefix := s[..n];
    forall k | 0 <= k < |prefix| ensures IsSpace(prefix[k]) {
      assert prefix[k] == s[k];
    }
  }

  lemma TrailingPartIsBlank(s: string, n: nat)
    requires n <= |s| && forall k :: |s| - n <= k < |s| ==> IsSpace(s[k])
    ensures IsBlank(s[|s| - n..])
  {
    var suffix := s[|s| - n..];
    forall k | 0 <= k < |suffix| ensures IsSpace(suffix[k]) {
      assert suffix[k] == s[|s| - n + k];
    }
  }

}

=== FILE: views.dfy ===
/**
 * The HTTP front end: the transcribe endpoint, explicit session creation
 * and ending, the per-session result listing, the languages list and the
 * health check, each as the status and body it answers with and the change
 * it makes to the store.
 */
module Views {
  import opened Wrappers
  import opened JsonValues
  import Languages
  import Engine
  import opened Store
  import opened Serializers

  type AudioDecoder = Engine.AudioDecoder

  /** A response: status code and body. */
  datatype HttpResponse =
    | Transcribed(sessionId: string, chunkNumber: int, transcription: string, language: string, timestamp: nat)
    | SessionCreated(session: SessionView)
    | SessionEnded
    | SessionResults(sessionId: string, language: string, results: seq<ResultView>)
    | LanguageList(languages: seq<Languages.Language>)
    | Health(modelLoaded: bool, device: string)
    | Failure(status: nat, error: string, details: map<string, string>)
    | ServerError(exception: string)
  {
    function Status(): nat
    {
      match this
      case Failure(status, _, _) => status
      case ServerError(_) => 500
      case SessionCreated(_) => 201
      case _ => 200
    }
  }

  const InvalidInputError := "Invalid input data"
  const InvalidAudioError := "Invalid audio data format"
  const SessionNotFoundError := "Session not found"
  const CreateFailedError := "Failed to create session"

  function UnsupportedLanguageError(code: string): string
  {
    "Unsupported language code: " + code
  }

  /** GET languages/: the whole table, in table order. */
  function GetSupportedLanguages(): (r: HttpResponse)
    ensures r.Status() == 200 && r.LanguageList? && r.languages == Languages.Table
    ensures |r.languages| == 22 && Languages.DistinctCodes(r.languages)
    ensures forall i :: 0 <= i < |r.languages| ==> Languages.Lookup(r.languages[i].code) == Some(r.languages[i].name)
    ensures forall code :: Languages.IsSupported(code) ==> exists i :: 0 <= i < |r.languages| && r.languages[i].code == code
  {
    LanguageList(Languages.SupportedLanguages())
  }

  /** The text a chunk gets: "" for an empty array without asking the engine, else the engine's answer. */
  function ChunkText(samples: seq<real>, code: string, pick: nat): (text: string)
    ensures text == Engine.Transcribe(samples, JStr(code), pick)
  {
    if |samples| == 0 then "" else Engine.Transcribe(samples, JStr(code), pick)
  }

  const NonFieldErrorsKey := "non_field_errors"
  const NoDataError := "No data provided"
  const JsonParseErrorPrefix := "JSON parse error - "

  /** `type(v).__name__` of a JSON value other than an object; a compound one is then an array. */
  function PythonTypeName(v: Json): string
  {
    match v
    case JNull => "NoneType"
    case JBool(_) => "bool"
    case JInt(_) => "int"
    case JFloat(_, _) => "float"
    case JStr(_) => "str"
    case JCompound(_, _) => "list"
  }

  /**
   * `request.data` of an `application/json` request as the transcribe
   * endpoint's serializer receives it (an empty body parses to an empty
   * object). An object's fields go on to validation; any other JSON value
   * fails the serializer with a 400 under non_field_errors ("No data
   * provided" for null, the value's type otherwise); a JSON syntax error
   * (`Malformed`) makes request.data raise, which the handler answers
   * with a 500.
   */
  function RequestData(body: Frame): (r: Result<map<string, Json>, HttpResponse>)
    ensures r.Ok? <==> body.Document?
    ensures r.Ok? ==> r.value == body.fields
    ensures body.Malformed? ==> r.Err? && r.error.ServerError? && JsonParseErrorPrefix <= r.error.exception
    ensures body.NonObject? && body.value.JNull? ==>
      r == Err(Failure(400, InvalidInputError, map[NonFieldErrorsKey := NoDataError]))
    ensures body.NonObject? && !body.value.JNull? ==>
      r == Err(Failure(400, InvalidInputError,
                       map[NonFieldErrorsKey := "Invalid data. Expected a dictionary, but got " + PythonTypeName(body.value) + "."]))
  {
    match body
    case Document(fields) => Ok(fields)
    case Malformed => Err(ServerError(JsonParseErrorPrefix))
    case NonObject(JNull) => Err(Failure(400, InvalidInputError, map[NonFieldErrorsKey := NoDataError]))
    case NonObject(v) =>
      Err(Failure(400, InvalidInputError,
                  map[NonFieldErrorsKey := "Invalid data. Expected a dictionary, but got " + PythonTypeName(v) + "."]))
  }

  /** A chunk that passed every check of the transcribe endpoint. */
  datatype Admitted = Admitted(request: ChunkRequest, samples: seq<real>, languageName: string)

  /**
   * The three checks of the transcribe endpoint, in order: the serializer,
   * the audio decoding and the language code. The first failure decides
   * the 400 response.
   */
  function Admit(data: map<string, Json>, decode: AudioDecoder): (r: Result<Admitted, HttpResponse>)
    ensures ValidateChunk(data).Err? ==> r == Err(Failure(400, InvalidInputError, ValidateChunk(data).error))
    ensures ValidateChunk(data).Ok? && decode(JStr(ValidateChunk(data).value.audioData)).Err? ==>
      r == Err(Failure(400, InvalidAudioError, map[]))
    ensures ValidateChunk(data).Ok? && decode(JStr(ValidateChunk(data).value.audioData)).Ok?
            && !Languages.IsSupported(ValidateChunk(data).value.languageCode) ==>
      r == Err(Failure(400, UnsupportedLanguageError(ValidateChunk(data).value.languageCode), map[]))
    ensures r.Ok? <==> (ValidateChunk(data).Ok? && decode(JStr(ValidateChunk(data).value.audioData)).Ok?
                        && Languages.IsSupported(ValidateChunk(data).value.languageCode))
    ensures r.Ok? ==>
      && r.value.request == ValidateChunk(data).value
      && Ok(r.value.samples) == decode(JStr(r.value.request.audioData))
      && Languages.Lookup(r.value.request.languageCode) == Some(r.value.languageName)
    ensures r.Err? ==> r.error.Failure? && r.error.status == 400
  {
    var validated := ValidateChunk(data);
    if validated.Err? then Err(Failure(400, InvalidInputError, validated.error))
    else
      var req := validated.value;
      var decoded := decode(JStr(req.audioData));
      if decoded.Err? then Err(Failure(400, InvalidAudioError, map[]))
      else
        var name := Languages.Lookup(req.languageCode);
        if name.None? then Err(Failure(400, UnsupportedLanguageError(req.languageCode), map[]))
        else Ok(Admitted(req, decoded.value, name.value))
  }

  /**
   * POST transcribe/. Every check runs before any write, so a 400 leaves
   * the store untouched. Then the session is fetched or created (an
   * existing one is reused as it is, even when ended), the chunk is
   * transcribed, and exactly one result row is appended.
   */
  method Post(db: Database, engines: Engine.EngineRegistry, body: Frame, decode: AudioDecoder, pick: nat)
    returns (resp: HttpResponse)
    requires db.Valid() && engines.Valid()
    modifies db, engines
    ensures db.Valid() && engines.Valid()
    ensures RequestData(body).Err? ==>
      && resp == RequestData(body).error
      && db.sessions == old(db.sessions) && db.results == old(db.results) && db.clock == old(db.clock)
    ensures RequestData(body).Ok? && Admit(body.fields, decode).Err? ==>
      && resp == Admit(body.fields, decode).error
      && db.sessions == old(db.sessions) && db.results == old(db.results) && db.clock == old(db.clock)
    ensures RequestData(body).Ok? && Admit(body.fields, decode).Ok? ==>
      Recorded(Admit(body.fields, decode).value, pick, old(db.sessions), old(db.results), old(db.clock),
               db.sessions, db.results, db.clock, resp)
  {
    var data := RequestData(body);
    if data.Err? {
      return data.error;
    }
    var admitted := Admit(data.value, decode);
    if admitted.Err? {
      return admitted.error;
    }
    resp := Record(db, engines, admitted.value, pick);
  }

  /**
   * The store and response after an admitted chunk: its session exists
   * (created active in the requested language when it was missing, else
   * untouched); a chunk number that fits the 64-bit column appends exactly
   * one row holding the engine's text and the response echoes that row;
   * a wider one appends nothing and answers 500, the new session staying.
   */
  ghost predicate Recorded(a: Admitted, pick: nat,
                           sessions0: map<string, Session>, results0: seq<ResultRow>, clock0: nat,
                           sessions: map<string, Session>, results: seq<ResultRow>, clock: nat, resp: HttpResponse)
  {
    var id := a.request.sessionId;
    var text := ChunkText(a.samples, a.request.languageCode, pick);
    var clock1 := if id in sessions0 then clock0 else clock0 + 1;
    && sessions == (if id in sessions0 then sessions0
                    else sessions0[id := Session(a.request.languageCode, true, clock0, clock0)])
    && (FitsInteger(a.request.chunkNumber) ==>
          && results == results0 + [ResultRow(id, a.request.chunkNumber, text, None, clock1)]
          && clock == clock1 + 1
          && resp == Transcribed(id, a.request.chunkNumber, text, a.languageName, clock1))
    && (!FitsInteger(a.request.chunkNumber) ==>
          results == results0 && clock == clock1 && resp == ServerError(IntegerOverflowError))
  }

  /** The writes of an admitted chunk: get-or-create the session, transcribe, append one row. */
  method Record(db: Database, engines: Engine.EngineRegistry, a: Admitted, pick: nat) returns (resp: HttpResponse)
    requires db.Valid() && engines.Valid()
    modifies db, engines
    ensures db.Valid() && engines.Valid()
    ensures Recorded(a, pick, old(db.sessions), old(db.results), old(db.clock), db.sessions, db.results, db.clock, resp)
  {
    var created := db.GetOrCreate(a.request.sessionId, a.request.languageCode);
    var engine := engines.GetInstance();
    var text: string;
    if |a.samples| == 0 {
      text := "";
    } else {
      text := Engine.Transcribe(a.samples, JStr(a.request.languageCode), pick);
    }
    var ok := db.AppendResult(a.request.sessionId, a.request.chunkNumber, text, None);
    if ok {
      resp := Transcribed(a.request.sessionId, a.request.chunkNumber, text, a.languageName, db.clock - 1);
    } else {
      resp := ServerError(IntegerOverflowError);
    }
  }

  /**
   * The language of an explicit session creation: 'hi' when absent; an
   * array or object cannot be looked up in the table (500); any other
   * value outside the table is a 400.
   */
  function SessionLanguage(body: Frame): (r: Result<string, HttpResponse>)
    ensures !body.Document? ==> r == Err(Failure(500, CreateFailedError, map[]))
    ensures body.Document? ==>
      var code := Get(body.fields, "language_code", JStr("hi"));
      && (!Hashable(code) ==> r == Err(Failure(500, CreateFailedError, map[])))
      && (Hashable(code) && !(code.JStr? && Languages.IsSupported(code.s)) ==>
            r == Err(Failure(400, UnsupportedLanguageError(Show(code)), map[])))
      && (r.Ok? <==> code.JStr? && Languages.IsSupported(code.s))
      && (r.Ok? ==> r.value == code.s)
    ensures body.Document? && "language_code" !in body.fields ==> r == Ok("hi")
  {
    if !body.Document? then Err(Failure(500, CreateFailedError, map[]))
    else
      var code := Get(body.fields, "language_code", JStr("hi"));
      if !Hashable(code) then Err(Failure(500, CreateFailedError, map[]))
      else if !(code.JStr? && Languages.IsSupported(code.s)) then
        Err(Failure(400, UnsupportedLanguageError(Show(code)), map[]))
      else
        Languages.DefaultLanguageSupported();
        Ok(code.s)
  }

  /**
   * POST session/create/. A new active session is stored under the fresh
   * id and returned with 201. `newId` stands for the generated uuid4 text;
   * a clash with a stored id breaks the unique constraint (500).
   */
  method CreateSession(db: Database, body: Frame, newId: string) returns (resp: HttpResponse)
    requires db.Valid()
    modifies db
    ensures db.Valid() && db.results == old(db.results)
    ensures SessionLanguage(body).Err? ==>
      resp == SessionLanguage(body).error && db.sessions == old(db.sessions) && db.clock == old(db.clock)
    ensures SessionLanguage(body).Ok? && newId in old(db.sessions) ==>
      resp == Failure(500, CreateFailedError, map[]) && db.sessions == old(db.sessions) && db.clock == old(db.clock)
    ensures SessionLanguage(body).Ok? && newId !in old(db.sessions) ==>
      && db.sessions == old(db.sessions)[newId := Session(SessionLanguage(body).value, true, old(db.clock), old(db.clock))]
      && resp == SessionCreated(SessionView(newId, SessionLanguage(body).value, old(db.clock), true))
  {
    var language := SessionLanguage(body);
    if language.Err? {
      return language.error;
    }
    var ok := db.Create(newId, language.value);
    if !ok {
      return Failure(500, CreateFailedError, map[]);
    }
    resp := SessionCreated(SerializeSession(newId, db.sessions[newId]));
  }

  /** POST session/<id>/end/: an unknown id is a 404; a known session becomes inactive. */
  method EndSession(db: Database, id: string) returns (resp: HttpResponse)
    requires db.Valid()
    modifies db
    ensures db.Valid() && db.results == old(db.results)
    ensures id !in old(db.sessions) ==>
      resp == Failure(404, SessionNotFoundError, map[]) && db.sessions == old(db.sessions) && db.clock == old(db.clock)
    ensures id in old(db.sessions) ==>
      && resp == SessionEnded
      && db.sessions == old(db.sessions)[id := old(db.sessions)[id].(isActive := false, updatedAt := old(db.clock))]
  {
    var found := db.Deactivate(id);
    if found {
      resp := SessionEnded;
    } else {
      resp := Failure(404, SessionNotFoundError, map[]);
    }
  }

  /**
   * GET session/<id>/results/: a 404 for an unknown id; otherwise every
   * result of that session, ascending by chunk number, with the display
   * name of the stored language ('Unknown' when the table lacks it).
   */
  function GetSessionResults(db: Database, id: string): (resp: HttpResponse)
    reads db
    ensures id !in db.sessions ==> resp == Failure(404, SessionNotFoundError, map[])
    ensures id in db.sessions ==>
      && resp.SessionResults? && resp.sessionId == id
      && resp.language == Languages.NameOrUnknown(db.sessions[id].languageCode)
      && |resp.results| == |RowsOf(db.results, id)|
      && (forall i, j :: 0 <= i < j < |resp.results| ==> resp.results[i].chunkNumber <= resp.results[j].chunkNumber)
      && (forall v :: v in resp.results ==>
            exists row :: row in db.results && row.sessionId == id && v == SerializeResult(row))
      && multiset(resp.results) == multiset(SerializeRows(RowsOf(db.results, id)))
  {
    if id !in db.sessions then
      Failure(404, SessionNotFoundError, map[])
    else
      var rows := db.ResultsOf(id);
      assert |rows| == |multiset(rows)| == |RowsOf(db.results, id)|;
      var views := SerializeRows(rows);
      SessionRowViews(db.results, id, rows, views);
      SerializeRowsPermutation(rows, RowsOf(db.results, id));
      SessionResults(id, Languages.NameOrUnknown(db.sessions[id].languageCode), views)
  }

  /** Serializing one session's rows, sorted by chunk, keeps the order and the provenance of each view. */
  lemma SessionRowViews(results: seq<ResultRow>, id: string, rows: seq<ResultRow>, views: seq<ResultView>)
    requires SortedByChunk(rows)
    requires forall x :: x in rows ==> x in results && x.sessionId == id
    requires |views| == |rows| && forall i :: 0 <= i < |rows| ==> views[i] == SerializeResult(rows[i])
    ensures forall i, j :: 0 <= i < j < |views| ==> views[i].chunkNumber <= views[j].chunkNumber
    ensures forall v :: v in views ==> exists row :: row in results && row.sessionId == id && v == SerializeResult(row)
  {
    forall v | v in views
      ensures exists row :: row in results && row.sessionId == id && v == SerializeResult(row)
    {
      var i :| 0 <= i < |views| && views[i] == v;
      assert rows[i] in rows;
    }
  }

  /** Serializing a concatenation serializes each part. */
  lemma SerializeRowsConcat(a: seq<ResultRow>, b: seq<ResultRow>)
    ensures SerializeRows(a + b) == SerializeRows(a) + SerializeRows(b)
  {
    var l, r := SerializeRows(a + b), SerializeRows(a) + SerializeRows(b);
    assert |l| == |r|;
    forall i | 0 <= i < |l| ensures l[i] == r[i] {
      if i < |a| {
        assert (a + b)[i] == a[i];
      } else {
        assert (a + b)[i] == b[i - |a|];
      }
    }
  }

  /** Rows that are a permutation of each other serialize to views that are a permutation of each other. */
  lemma {:induction false} SerializeRowsPermutation(a: seq<ResultRow>, b: seq<ResultRow>)
    requires multiset(a) == multiset(b)
    ensures multiset(SerializeRows(a)) == multiset(SerializeRows(b))
    decreases |a|
  {
    if a == [] {
      assert |b| == |multiset(b)| == 0;
    } else {
      var n := |a| - 1;
      var x := a[n];
      assert a == a[..n] + [x];
      assert x in multiset(b);
      var j :| 0 <= j < |b| && b[j] == x;
      assert b == b[..j] + [x] + b[j + 1..];
      var rest := b[..j] + b[j + 1..];
      assert multiset(rest) == multiset(b) - multiset{x};
      assert multiset(a[..n]) == multiset(a) - multiset{x};
      SerializeRowsPermutation(a[..n], rest);
      SerializeRowsConcat(a[..n], [x]);
      SerializeRowsConcat(b[..j] + [x], b[j + 1..]);
      SerializeRowsConcat(b[..j], [x]);
      SerializeRowsConcat(b[..j], b[j + 1..]);
    }
  }

  /** The serialized form of each row, in the same order. */
  function SerializeRows(rows: seq<ResultRow>): (views: seq<ResultView>)
    ensures |views| == |rows|
    ensures forall i :: 0 <= i < |rows| ==> views[i] == SerializeResult(rows[i])
  {
    seq(|rows|, i requires 0 <= i < |rows| => SerializeResult(rows[i]))
  }

  /** GET health/: fetches (and on first use builds) the engine and reports it; an empty device name reads 'unknown'. */
  method HealthCheck(engines: Engine.EngineRegistry) returns (resp: HttpResponse)
    requires engines.Valid()
    modifies engines
    ensures engines.Valid() && engines.instance != null
    ensures resp == Health(engines.instance.isLoaded,
                           if engines.instance.device.Some? && engines.instance.device.value != ""
                           then engines.instance.device.value else "unknown")
  {
    var engine := engines.GetInstance();
    var device := if engine.device.Some? && engine.device.value != "" then engine.device.value else "unknown";
    resp := Health(engine.isLoaded, device);
  }
}

=== FILE: websocket_service.dfy ===
/**
 * The browser's WebSocket client: a registry of message handlers keyed by
 * message type, a connected flag, a bounded reconnect counter and the
 * builders of the three outbound message kinds.
 */
module WebSocketClient {
  import opened Wrappers
  import opened JsonValues
  import Consumer

  /** A registered callback, identified as JavaScript compares functions: by identity. */
  type HandlerId = nat

  const MaxReconnectAttempts := 5
  const ReconnectDelay := 1000
  /** The close code of a deliberate, normal close. */
  const NormalClosure := 1000
  const DefaultSampleRate := 16000
  const NotConnectedError := "WebSocket not connected"

  const SocketUrlPrefix := "ws://localhost:8000/ws/transcription/"

  /** The server endpoint of a session's socket: the session id sits between the fixed prefix and a final '/'. */
  function SocketUrl(sessionId: string): (url: string)
    ensures |url| == |SocketUrlPrefix| + |sessionId| + 1
    ensures url[..|SocketUrlPrefix|] == SocketUrlPrefix && url[|url| - 1] == '/'
    ensures url[|SocketUrlPrefix|..|url| - 1] == sessionId
  {
    SocketUrlPrefix + sessionId + "/"
  }

  /** An open or opening socket, by the URL it was created for. */
  datatype Socket = Socket(url: string)

  /** The outbound messages the builders produce. */
  datatype ClientMessage =
    | AudioChunk(audioData: string, languageCode: string, chunkNumber: int, sampleRate: int)
    | StartSession(languageCode: string)
    | EndSession

  /** The JSON object a message is serialised as. */
  function Wire(m: ClientMessage): (fields: map<string, Json>)
    ensures "type" in fields && fields["type"].JStr?
  {
    match m
    case AudioChunk(audio, language, chunk, rate) =>
      map["type" := JStr("audio_chunk"), "audio_data" := JStr(audio), "language_code" := JStr(language),
          "chunk_number" := JInt(chunk), "sample_rate" := JInt(rate)]
    case StartSession(language) =>
      map["type" := JStr("start_session"), "language_code" := JStr(language)]
    case EndSession =>
      map["type" := JStr("end_session")]
  }

  /**
   * The server's consumer sends every message the client builds to the
   * handler of the same kind, and a chunk's number arrives as the integer
   * that was sent.
   */
  lemma ServerRoutesClientMessages(m: ClientMessage)
    ensures m.AudioChunk? ==> Consumer.RouteOf(Document(Wire(m))).AudioChunk?
    ensures m.StartSession? ==> Consumer.RouteOf(Document(Wire(m))).StartSession?
    ensures m.EndSession? ==> Consumer.RouteOf(Document(Wire(m))).EndSession?
    ensures m.AudioChunk? ==> Consumer.ChunkColumn(Wire(m)["chunk_number"]) == Ok(m.chunkNumber)
    ensures m.StartSession? ==> Get(Wire(m), "language_code", JStr("hi")) == JStr(m.languageCode)
  {
  }

  /** indexOf: the first position of `h`, or -1. */
  function IndexOf(s: seq<HandlerId>, h: HandlerId): (i: int)
    ensures -1 <= i < |s|
    ensures i == -1 <==> h !in s
    ensures 0 <= i ==> s[i] == h && h !in s[..i]
  {
    if s == [] then -1
    else if s[0] == h then 0
    else
      var k := IndexOf(s[1..], h);
      assert s[1..][..if k < 0 then 0 else k] == s[1..1 + if k < 0 then 0 else k];
      if k == -1 then -1 else k + 1
  }

  /** splice(indexOf(h), 1) when h is present: the list without its first `h`. */
  function RemoveFirst(s: seq<HandlerId>, h: HandlerId): (r: seq<HandlerId>)
    ensures h !in s ==> r == s
    ensures h in s ==> |r| == |s| - 1 && multiset(r) == multiset(s) - multiset{h}
    ensures h in s ==> exists i :: 0 <= i < |s| && s[i] == h && h !in s[..i] && r == s[..i] + s[i + 1..]
  {
    var i := IndexOf(s, h);
    if i < 0 then s
    else
      assert s == s[..i] + [s[i]] + s[i + 1..];
      s[..i] + s[i + 1..]
  }

  /** Removing a handler that was just appended, and was not registered before, restores the list. */
  lemma RemoveJustAdded(s: seq<HandlerId>, h: HandlerId)
    requires h !in s
    ensures RemoveFirst(s + [h], h) == s
  {
    assert (s + [h])[..|s|] == s;
  }

  /** The handlers among `called` that throw. */
  function Throwing(called: seq<HandlerId>, throws: HandlerId -> bool): (r: seq<HandlerId>)
    ensures forall h :: h in r <==> h in called && throws(h)
  {
    if called == [] then []
    else (if throws(called[0]) then [called[0]] else []) + Throwing(called[1..], throws)
  }

  /** The type of an inbound message, when it is a string that can be a registry key. */
  function MessageType(frame: Frame): (t: Option<string>)
    ensures t.Some? ==> frame.Document? && "type" in frame.fields && frame.fields["type"] == JStr(t.value)
  {
    if frame.Document? && "type" in frame.fields && frame.fields["type"].JStr? then
      Some(frame.fields["type"].s)
    else
      None
  }

  class WebSocketService {
    var socket: Option<Socket>
    var sessionId: Option<string>
    var isConnected: bool
    var handlers: map<string, seq<HandlerId>>
    var reconnectAttempts: nat
    /** Every message written to a socket, oldest first. */
    var outbox: seq<ClientMessage>
    /** The delays of the reconnect timers scheduled so far, oldest first. */
    var scheduledDelays: seq<nat>
    /** The close codes this client has requested, oldest first. */
    var closeRequests: seq<nat>

    /**
     * The reconnect counter never passes its maximum, and every timer
     * waits a whole number of reconnect delays, at most the maximum.
     */
    ghost predicate Valid()
      reads this
    {
      && reconnectAttempts <= MaxReconnectAttempts
      && (forall i :: 0 <= i < |scheduledDelays| ==>
            ReconnectDelay <= scheduledDelays[i] <= MaxReconnectAttempts * ReconnectDelay
            && scheduledDelays[i] % ReconnectDelay == 0)
    }

    constructor()
      ensures Valid()
      ensures socket == None && sessionId == None && !isConnected && handlers == map[] && reconnectAttempts == 0
      ensures outbox == [] && scheduledDelays == [] && closeRequests == []
    {
      socket := None;
      sessionId := None;
      isConnected := false;
      handlers := map[];
      reconnectAttempts := 0;
      outbox := [];
      scheduledDelays := [];
      closeRequests := [];
    }

    /** connect: remembers the session and opens a new socket to its URL; not yet connected. */
    method Connect(id: string)
      requires Valid()
      modifies this
      ensures Valid()
      ensures sessionId == Some(id) && socket == Some(Socket(SocketUrl(id)))
      ensures isConnected == old(isConnected) && reconnectAttempts == old(reconnectAttempts)
      ensures handlers == old(handlers) && outbox == old(outbox)
      ensures scheduledDelays == old(scheduledDelays) && closeRequests == old(closeRequests)
    {
      sessionId := Some(id);
      socket := Some(Socket(SocketUrl(id)));
    }

    /** onopen: connected, and the reconnect counter starts over. */
    method OnOpen()
      requires Valid()
      modifies this
      ensures Valid()
      ensures isConnected && reconnectAttempts == 0
      ensures socket == old(socket) && sessionId == old(sessionId) && handlers == old(handlers)
      ensures outbox == old(outbox) && scheduledDelays == old(scheduledDelays) && closeRequests == old(closeRequests)
    {
      isConnected := true;
      reconnectAttempts := 0;
    }

    /**
     * onclose: disconnected; an abnormal close schedules a reconnect while
     * fewer than the maximum attempts were made.
     */
    method OnClose(code: int)
      requires Valid()
      modifies this
      ensures Valid()
      ensures !isConnected
      ensures socket == old(socket) && sessionId == old(sessionId) && handlers == old(handlers)
      ensures outbox == old(outbox) && closeRequests == old(closeRequests)
      ensures code != NormalClosure && old(reconnectAttempts) < MaxReconnectAttempts ==>
        && reconnectAttempts == old(reconnectAttempts) + 1
        && scheduledDelays == old(scheduledDelays) + [ReconnectDelay * reconnectAttempts]
      ensures !(code != NormalClosure && old(reconnectAttempts) < MaxReconnectAttempts) ==>
        reconnectAttempts == old(reconnectAttempts) && scheduledDelays == old(scheduledDelays)
    {
      isConnected := false;
      if code != NormalClosure && reconnectAttempts < MaxReconnectAttempts {
        AttemptReconnect();
      }
    }

    /** attemptReconnect: counts the attempt and schedules a timer of that many reconnect delays. */
    method AttemptReconnect()
      requires Valid() && reconnectAttempts < MaxReconnectAttempts
      modifies this
      ensures Valid()
      ensures reconnectAttempts == old(reconnectAttempts) + 1
      ensures scheduledDelays == old(scheduledDelays) + [ReconnectDelay * reconnectAttempts]
      ensures socket == old(socket) && sessionId == old(sessionId) && isConnected == old(isConnected)
      ensures handlers == old(handlers) && outbox == old(outbox) && closeRequests == old(closeRequests)
    {
      reconnectAttempts := reconnectAttempts + 1;
      scheduledDelays := scheduledDelays + [ReconnectDelay * reconnectAttempts];
    }

    /** A reconnect timer firing: reconnects to the remembered session, if it is a non-empty id. */
    method ReconnectTimerFires()
      requires Valid()
      modifies this
      ensures Valid()
      ensures sessionId.Some? && sessionId.value != "" ==> socket == Some(Socket(SocketUrl(sessionId.value)))
      ensures !(old(sessionId).Some? && old(sessionId).value != "") ==> socket == old(socket)
      ensures sessionId == old(sessionId) && isConnected == old(isConnected)
      ensures reconnectAttempts == old(reconnectAttempts) && handlers == old(handlers) && outbox == old(outbox)
      ensures scheduledDelays == old(scheduledDelays) && closeRequests == old(closeRequests)
    {
      if sessionId.Some? && sessionId.value != "" {
        Connect(sessionId.value);
      }
    }

    /**
     * disconnect: with a socket, closes it normally (so its close event
     * schedules no reconnect) and forgets socket, flag and session;
     * without one, changes nothing.
     */
    method Disconnect()
      requires Valid()
      modifies this
      ensures Valid()
      ensures old(socket).Some? ==>
        && socket == None && !isConnected && sessionId == None
        && closeRequests == old(closeRequests) + [NormalClosure]
      ensures old(socket).None? ==>
        socket == old(socket) && isConnected == old(isConnected) && sessionId == old(sessionId)
        && closeRequests == old(closeRequests)
      ensures reconnectAttempts == old(reconnectAttempts) && handlers == old(handlers)
      ensures outbox == old(outbox) && scheduledDelays == old(scheduledDelays)
    {
      if socket.Some? {
        closeRequests := closeRequests + [NormalClosure];
        socket := None;
        isConnected := false;
        sessionId := None;
      }
    }

    /** sendMessage: written to the socket only when there is one and it is connected. */
    method SendMessage(m: ClientMessage) returns (r: Result<(), string>)
      requires Valid()
      modifies this
      ensures Valid()
      ensures r.Ok? <==> old(socket).Some? && old(isConnected)
      ensures r.Ok? ==> outbox == old(outbox) + [m]
      ensures r.Err? ==> r.error == NotConnectedError && outbox == old(outbox)
      ensures socket == old(socket) && sessionId == old(sessionId) && isConnected == old(isConnected)
      ensures reconnectAttempts == old(reconnectAttempts) && handlers == old(handlers)
      ensures scheduledDelays == old(scheduledDelays) && closeRequests == old(closeRequests)
    {
      if socket.Some? && isConnected {
        outbox := outbox + [m];
        r := Ok(());
      } else {
        r := Err(NotConnectedError);
      }
    }

    /** sendAudioChunk: an 'audio_chunk' message; an omitted sample rate is 16000. */
    method SendAudioChunk(audioData: string, languageCode: string, chunkNumber: int, sampleRate: Option<int>)
      returns (r: Result<(), string>)
      requires Valid()
      modifies this
      ensures Valid()
      ensures var rate := if sampleRate.Some? then sampleRate.value else DefaultSampleRate;
        r.Ok? ==> outbox == old(outbox) + [AudioChunk(audioData, languageCode, chunkNumber, rate)]
      ensures r.Ok? <==> old(socket).Some? && old(isConnected)
      ensures r.Err? ==> r.error == NotConnectedError && outbox == old(outbox)
      ensures socket == old(socket) && sessionId == old(sessionId) && isConnected == old(isConnected)
      ensures reconnectAttempts == old(reconnectAttempts) && handlers == old(handlers)
      ensures scheduledDelays == old(scheduledDelays) && closeRequests == old(closeRequests)
    {
      var rate := if sampleRate.Some? then sampleRate.value else DefaultSampleRate;
      r := SendMessage(AudioChunk(audioData, languageCode, chunkNumber, rate));
    }

    /** startSession: a 'start_session' message for the language. */
    method StartSessionMessage(languageCode: string) returns (r: Result<(), string>)
      requires Valid()
      modifies this
      ensures Valid()
      ensures r.Ok? <==> old(socket).Some? && old(isConnected)
      ensures r.Ok? ==> outbox == old(outbox) + [StartSession(languageCode)]
      ensures r.Err? ==> r.error == NotConnectedError && outbox == old(outbox)
      ensures socket == old(socket) && sessionId == old(sessionId) && isConnected == old(isConnected)
      ensures reconnectAttempts == old(reconnectAttempts) && handlers == old(handlers)
      ensures scheduledDelays == old(scheduledDelays) && closeRequests == old(closeRequests)
    {
      r := SendMessage(StartSession(languageCode));
    }

    /** endSession: an 'end_session' message. */
    method EndSessionMessage() returns (r: Result<(), string>)
      requires Valid()
      modifies this
      ensures Valid()
      ensures r.Ok? <==> old(socket).Some? && old(isConnected)
      ensures r.Ok? ==> outbox == old(outbox) + [EndSession]
      ensures r.Err? ==> r.error == NotConnectedError && outbox == old(outbox)
      ensures socket == old(socket) && sessionId == old(sessionId) && isConnected == old(isConnected)
      ensures reconnectAttempts == old(reconnectAttempts) && handlers == old(handlers)
      ensures scheduledDelays == old(scheduledDelays) && closeRequests == old(closeRequests)
    {
      r := SendMessage(EndSession);
    }

    /**
     * handleMessage: calls every handler registered for the type, in
     * registration order, each despite earlier ones throwing; `failed`
     * lists those that threw. A type never registered calls none.
     */
    method HandleMessage(messageType: string, throws: HandlerId -> bool)
      returns (called: seq<HandlerId>, failed: seq<HandlerId>, unhandled: bool)
      ensures unhandled <==> messageType !in handlers
      ensures messageType in handlers ==> called == handlers[messageType]
      ensures messageType !in handlers ==> called == []
      ensures failed == Throwing(called, throws)
    {
      called := [];
      failed := [];
      unhandled := messageType !in handlers;
      if unhandled {
        return;
      }
      var list := handlers[messageType];
      var i := 0;
      while i < |list|
        invariant 0 <= i <= |list|
        invariant called == list[..i]
        invariant failed == Throwing(called, throws)
      {
        ThrowingAppend(called, list[i], throws);
        if throws(list[i]) {
          failed := failed + [list[i]];
        }
        called := called + [list[i]];
        i := i + 1;
      }
      assert list[..|list|] == list;
    }

    /**
     * onmessage: a frame that is not JSON, or whose type is not a string
     * key, reaches no handler; any other goes through handleMessage.
     */
    method OnSocketMessage(frame: Frame, throws: HandlerId -> bool) returns (called: seq<HandlerId>)
      ensures MessageType(frame).Some? && MessageType(frame).value in handlers ==>
        called == handlers[MessageType(frame).value]
      ensures !(MessageType(frame).Some? && MessageType(frame).value in handlers) ==> called == []
    {
      var t := MessageType(frame);
      if t.None? {
        return [];
      }
      var failed, unhandled;
      called, failed, unhandled := HandleMessage(t.value, throws);
    }

    /** onMessage: appends the handler to its type's list, creating the list when absent. */
    method OnMessage(messageType: string, h: HandlerId)
      requires Valid()
      modifies this
      ensures Valid()
      ensures handlers == old(handlers)[messageType :=
                (if messageType in old(handlers) then old(handlers)[messageType] else []) + [h]]
      ensures socket == old(socket) && sessionId == old(sessionId) && isConnected == old(isConnected)
      ensures reconnectAttempts == old(reconnectAttempts) && outbox == old(outbox)
      ensures scheduledDelays == old(scheduledDelays) && closeRequests == old(closeRequests)
    {
      if messageType !in handlers {
        handlers := handlers[messageType := []];
      }
      handlers := handlers[messageType := handlers[messageType] + [h]];
    }

    /**
     * offMessage: removes the first registration of the handler for the
     * type; no change when the type or the handler is absent. The type's
     * list stays in the registry even when it becomes empty.
     */
    method OffMessage(messageType: string, h: HandlerId)
      requires Valid()
      modifies this
      ensures Valid()
      ensures messageType !in old(handlers) ==> handlers == old(handlers)
      ensures messageType in old(handlers) ==>
        handlers == old(handlers)[messageType := RemoveFirst(old(handlers)[messageType], h)]
      ensures socket == old(socket) && sessionId == old(sessionId) && isConnected == old(isConnected)
      ensures reconnectAttempts == old(reconnectAttempts) && outbox == old(outbox)
      ensures scheduledDelays == old(scheduledDelays) && closeRequests == old(closeRequests)
    {
      if messageType in handlers {
        var list := handlers[messageType];
        var index := IndexOf(list, h);
        if index > -1 {
          assert list[..index] + list[index + 1..] == RemoveFirst(list, h);
          handlers := handlers[messageType := list[..index] + list[index + 1..]];
        }
      }
    }

    /** clearMessageHandlers: the registry becomes empty. */
    method ClearMessageHandlers()
      requires Valid()
      modifies this
      ensures Valid()
      ensures handlers == map[]
      ensures socket == old(socket) && sessionId == old(sessionId) && isConnected == old(isConnected)
      ensures reconnectAttempts == old(reconnectAttempts) && outbox == old(outbox)
      ensures scheduledDelays == old(scheduledDelays) && closeRequests == old(closeRequests)
    {
      handlers := map[];
    }
  }

  lemma {:induction false} ThrowingAppend(called: seq<HandlerId>, h: HandlerId, throws: HandlerId -> bool)
    ensures Throwing(called + [h], throws) == Throwing(called, throws) + (if throws(h) then [h] else [])
  {
    if called != [] {
      assert (called + [h])[1..] == called[1..] + [h];
      ThrowingAppend(called[1..], h, throws);
    }
  }
}

=== FILE: wrappers.dfy ===
/** Option and Result values shared by every module of the model. */
module Wrappers {

  /** A value that may be absent: Python's None, JavaScript's null. */
  datatype Option<+T> = None | Some(value: T)

  /** The outcome of a step that either produces a value or fails with an error. */
  datatype Result<+T, +E> = Ok(value: T) | Err(error: E)
}
